=== FILE: README.md ===
# Match settlement and scoring, modelled in Dafny

This project models the core of a football-prediction backend. Users predict the
winner of a scheduled match, or a draw. When the match is over, every prediction
of the match is settled: its `status` becomes true or false, and each correct
prediction credits its owner 10 points (`poin`). The points feed a leaderboard.

The database becomes an in-memory `Store` (`Domain`):
- a set of team ids;
- a map of matches;
- the `predictions` table as a sequence in table order;
- a map of user accounts.

Every request handler becomes a pure function. It returns `Ok(store')` or
`Err(reason)`. Each refusal in the core is decided before the first write, so an
`Err` leaves the store unchanged. `poin` is a nullable column and is modelled as
`Option<int>`.

There are several settlement paths, and they differ in two ways (`Settlement`):

- **Correctness rule** (`Outcome`).
  - The backend helper and the admin route use a *draw sentinel*. A draw
    (0-0 included) makes exactly the picks of 0 correct.
  - The legacy helper has no draw sentinel. An equal score, or a score that is
    `undefined`, rewards nobody.
- **How a credit is written.**
  - The backend helper reads the user, adds 10 in JavaScript, and writes the
    result back. `null + 10` is 10.
  - The admin route and the legacy helper use an SQL `poin = poin + 10`, which
    leaves a NULL as NULL.

`Settle` sweeps all predictions once in table order. `Bumped(p, k, mode)` is the
closed form of `k` credits.

The settlement paths modelled are:
- the backend `updateMatch`/`updateMatchSchedule`, which finish a match when a
  score arrives and settle it on the open-to-finished edge (`Lifecycle`);
- the `PUT /:id/finish` route (`Lifecycle.Finish`);
- the admin `updatePredictionStatuses` route (`AdminSettlement`);
- the older root controller: its helper, its score-based trigger, its plain
  score update, and the `POST /update-all-finished` batch built on it (`Legacy`).

Match creation is also modelled. Its time pattern, and the `":00"` padding
applied on create, are in `TimeFormat`. Prediction admission is in `Admission`.
The leaderboard and user-rank queries are in `Leaderboard`, and the paging
arithmetic of the match list is in `Pagination`.

## Model

| member | source | states |
|---|---|---|
| Outcome.Decide | backend/controllers/matchScheduleController.js:305-316 | Exactly one of team 1 wins, team 2 wins, draw holds, each iff the matching score comparison; 0-0 is a draw |
| Outcome.IsCorrect | backend/controllers/matchScheduleController.js:338-352 | A pick is correct iff (equal scores and pick 0) or (team 1 ahead and pick team 1) or (team 2 ahead and pick team 2) |
| Outcome.LegacyWinner | controllers/matchScheduleController.js:166-171 | The legacy winner exists iff both scores are defined and differ, and it is the team with the greater score |
| Outcome.LegacyIsCorrect | controllers/matchScheduleController.js:183-186 | A legacy pick is correct iff both scores are defined, the pick is non-zero, and the pick is the strictly higher-scoring team |
| Outcome.RulesAgreeOnDecisiveScores | controllers/matchScheduleController.js:166-186 | On a decisive score with non-zero team ids, the legacy rule and the draw-sentinel rule give the same verdict for every pick |
| Outcome.RulesDivergeOnDraws | backend/controllers/matchScheduleController.js:312-316 | On an equal score the sentinel rule rewards exactly the draw picks, while the legacy rule rewards no pick |
| Settlement.Restatus | backend/controllers/matchScheduleController.js:337-363 | Every prediction of the match gets the status the rule gives its pick; others are untouched; only statuses change |
| Settlement.CreditAll | backend/controllers/matchScheduleController.js:366-373 | Each user's poin becomes their old poin credited once per correct prediction they hold on the match; names, roles and the key set stay |
| Settlement.Settle | backend/controllers/matchScheduleController.js:337-374 | The sweep of the backend helper (`Lifecycle.SettleMatch` is this sweep with the draw-sentinel rule and read-modify-write credits): it settles every prediction of the match, changes nothing but statuses among predictions, leaves other matches' predictions, teams and matches unchanged, keeps the one-pick-per-user-and-match invariant, and credits each user once per correct pick, keeping names and roles |
| Settlement.WinsOfUniquePick | backend/controllers/matchScheduleController.js:342-373 | With one prediction per user and match, a settlement credits that prediction's owner exactly once if it is correct and not at all otherwise |
| Settlement.RestatusIdempotent | backend/controllers/matchScheduleController.js:362-363 | Writing the statuses a second time with the same rule changes nothing |
| TimeFormat.RenderIsTime | backend/controllers/matchScheduleController.js:9 | Every time of day 00:00-23:59 (optional seconds; 1- or 2-character hour below 10) is accepted by the time pattern |
| TimeFormat.ParseTime | backend/controllers/matchScheduleController.js:19 | Every string the pattern accepts is the spelling of a valid clock reading (round trip back to the same string), so the pattern accepts exactly those spellings |
| TimeFormat.PadTime | backend/controllers/matchScheduleController.js:109-112 | The padded time is the time itself or the time with ":00" appended |
| TimeFormat.PadTimeOnClock | backend/controllers/matchScheduleController.js:109-112 | On a valid time, padding adds ":00" seconds exactly when seconds are missing and the minutes are not 00 |
| TimeFormat.PadTimeExamples | backend/controllers/matchScheduleController.js:110-111 | "10:00" is left as it is and "10:30" becomes "10:30:00" |
| TimeFormat.PaddedTimeIsTime | backend/controllers/matchScheduleController.js:108-112 | Padding a time the pattern accepts yields a time the pattern still accepts |
| Lifecycle.UpdateMatch | backend/controllers/matchScheduleController.js:166-219 | 400 on a schema failure, 404 on an unknown id, otherwise every field the body carries is written and every other field kept. A score sent to an open match finishes it; otherwise the finished flag is the body's or the stored one, so `is_finished: false` reopens a match. Off the open-to-finished edge nothing is settled or credited. On the edge only statuses change: the match's predictions are settled with the new scores, others are untouched, and each user gains 10 per correct pick, reading null as 0, with name and role kept |
| Lifecycle.Finish | backend/routes/matchScheduleRoutes.js:25-68 | 404 for an unknown match and 400 for a finished one. Otherwise the match alone is marked finished, only statuses change among predictions, the match's predictions are settled with the stored scores, other predictions are unchanged, and each user gains 10 per correct pick (null read as 0) with name and role kept |
| Lifecycle.FinishOnlyOnce | backend/routes/matchScheduleRoutes.js:38-43 | After a successful finish, a second finish of the same match is refused |
| Lifecycle.FinishGoallessDraw | backend/routes/matchScheduleRoutes.js:45-54 | Finishing a match stored at 0-0 marks a draw pick correct and credits its owner 10 (null read as 0); a team pick is marked wrong and credits nothing |
| Lifecycle.ReopenedMatchIsSettledAgain | backend/controllers/matchScheduleController.js:185-204 | An update with is_finished false reopens a finished match; the next score update settles it again and credits a correct pick once more |
| Lifecycle.CreateMatch | backend/controllers/matchScheduleController.js:67-135 | Refusals come in a fixed order: schema, same team, team 1 missing, team 2 missing. Success happens iff all checks pass. The new match has the two distinct existing teams, the sent date, is not finished, has scores defaulting to 0, and has the padded time (":00" added only to a one-colon time without ":00"), which still matches the pattern. Nothing else changes |
| Admission.CreatePrediction | controllers/predictionController.js:21-105 | Each refusal happens iff every earlier check passed and its own check fails, in the order schema, authentication, unknown match, match with a positive score, pick not a team or 0 (compared on the raw body), existing prediction; a request that passes every check is admitted. On success exactly one pending prediction is appended and one-pick-per-user-and-match is preserved |
| Admission.GoallessFinishedMatchAdmits | controllers/predictionController.js:64-71 | A match finished at 0-0 still admits a new valid prediction |
| Admission.SecondSubmissionRefused | controllers/predictionController.js:82-96 | After one accepted prediction, a second submission for the same match by the same user is refused as a duplicate |
| Admission.TextPickRefused | controllers/predictionController.js:21-80 | A pick sent as a numeric string passes the schema but is refused as invalid, even "0" for a draw, because the raw body is compared with `!==` |
| Domain.OfMatch | controllers/predictionController.js:294-297 | The predictions of the match: as many as the match has, each of the match and from the table, and every prediction of the match among them |
| AdminSettlement.Updates | controllers/predictionController.js:301-339 | One report entry per prediction of the match: the j-th entry carries the j-th prediction's user and pick, the rule's status for that pick, 10 or 0 points to match, and the owner's username |
| AdminSettlement.UpdateStatuses | controllers/predictionController.js:251-360 | 404 for an unknown match; 400 for a 0-0 score. Otherwise it succeeds iff every owner exists; it settles with the draw-sentinel rule, only statuses change among predictions, and each user is credited by SQL increment (NULL stays NULL) with name and role kept. The report gives the winner, isDraw iff the scores are equal, a count equal to the match's predictions, and one entry per prediction of the match with its user, the owner's username, pick, status and points. A prediction whose owner is unknown makes it answer 500 |
| AdminSettlement.SecondCallCreditsAgain | controllers/predictionController.js:324-331 | A second call succeeds, writes the same statuses and leaves each user credited twice per correct pick |
| Legacy.LegacySettle | controllers/matchScheduleController.js:163-202 | Without a winner every pick of the match is marked wrong and nobody gains points. With a decisive score and non-zero teams a pick is right iff it is the winning team. Correct picks are credited by SQL increment; only statuses change otherwise |
| Legacy.NeverCorrectNoWins | controllers/matchScheduleController.js:166-186 | Under the legacy rule, an equal or missing score gives no user any win |
| Legacy.LegacyUpdateMatch | controllers/matchScheduleController.js:79-93 | 404 for an unknown match; otherwise only the two scores of that match change (an absent one stays); nothing finishes or settles |
| Legacy.LegacyUpdateMatchScheduleAsWritten | controllers/matchScheduleController.js:113 | Every request answers 500 and changes nothing |
| Legacy.LegacyUpdateMatchSchedule | controllers/matchScheduleController.js:110-160 | Corrected handler: 400 and 404 as in the backend, the body is written and the teams are kept, and the legacy helper runs with the raw body scores exactly when a truthy score arrives on a match stored at 0-0: the match's predictions get the legacy verdict, others are untouched, and each user is credited by SQL increment per correct pick; otherwise nothing is settled |
| Legacy.ScheduleUpdateNeverSettlesAsWritten | controllers/matchScheduleController.js:113 | On an open 0-0 match, a 2-0 update settles and credits a team-1 pick under the corrected handler, but the handler as written answers 500 |
| Legacy.GoallessFinalNeverSettles | controllers/matchScheduleController.js:136-139 | A 0-0 score update never fires the trigger: no status or point changes |
| Legacy.OneSidedScoreRewardsNobody | controllers/matchScheduleController.js:136-139 | A body with only one positive score fires the trigger, but every pick of the match is marked wrong and nobody gains points |
| Legacy.NatText | routes/predictionRoutes.js:43 | The decimal text of a score is digits only, has no leading zero, and reads back as the same number |
| Legacy.SweepOne | routes/predictionRoutes.js:34-40 | One pass of the loop: the predictions of that match get the legacy verdict of its stored score, the others keep their status, and each user gains 10 per correct pick by SQL increment (a NULL poin stays NULL) |
| Legacy.RunBatch | routes/predictionRoutes.js:32-46 | One entry per listed match, in order, with its id, its "skor1-skor2" text and an undefined success flag; matches, teams and the users' keys are unchanged, and only statuses change among predictions |
| Legacy.BatchStatuses | routes/predictionRoutes.js:32-46 | After the loop, each prediction of a listed match holds the legacy verdict of that match's stored score, and the others keep their status |
| Legacy.UpdateAllFinished | routes/predictionRoutes.js:19-60 | Every finished match is processed whatever its score. Its predictions get the legacy verdict, and a draw (0-0 included) marks all of them wrong. Predictions of open matches are untouched, only statuses change, teams and matches are kept, and each user gains 10 per correct pick over all finished matches by SQL increment (a NULL poin stays NULL) |
| Legacy.BatchPoints | controllers/matchScheduleController.js:190-195 | The batch credits each user 10 per correct pick across all listed matches by SQL increment |
| Legacy.BatchStatusesStable | routes/predictionRoutes.js:25-46 | A second run of the loop over the same matches writes exactly the statuses the first run wrote |
| Legacy.BatchTwiceCreditsTwice | routes/predictionRoutes.js:25-46 | Running the batch twice leaves the statuses of one run but credits every correct pick twice |
| Leaderboard.Sort | controllers/leaderboardController.js:13-16 | The result is ordered by poin descending with NULL last, then username ascending, and is a permutation of the input |
| Leaderboard.Players | controllers/leaderboardController.js:9-11 | Exactly the role-user rows are kept |
| Leaderboard.Standings | controllers/leaderboardController.js:48-57 | The ordering both queries use: sorted, a permutation of the role-user rows, containing every one of them and nothing else |
| Leaderboard.GetLeaderboard | controllers/leaderboardController.js:8-26 | At most ten entries, the first ones of the standings, ranked 1, 2, ... with a null poin shown as 0 |
| Leaderboard.FirstIndex | controllers/leaderboardController.js:60 | The index of the first row with the id, or -1 iff no row has it |
| Leaderboard.UnrankedIffAbsent | controllers/leaderboardController.js:61-68 | A user is missing from the standings iff no role-user row carries their id |
| Leaderboard.GetUserRank | controllers/leaderboardController.js:43-79 | 404 iff the user has no role-user row. Otherwise the rank is one more than the user's first position in the standings; username and poin (null as 0) are theirs; totalUsers counts the role-user rows |
| Leaderboard.UserRankCountsAhead | controllers/leaderboardController.js:48-60 | With unique ids and usernames, a user's rank is 1 plus the number of role-user users with more points, or with as many points and an earlier username |
| Leaderboard.LeaderboardAgreesWithUserRank | controllers/leaderboardController.js:13-22 | A user shown on the leaderboard gets the same rank from the user-rank query |
| Pagination.QueryInt | backend/controllers/matchScheduleController.js:27-28 | A missing, unparseable or zero query value gives the default, any other value is kept, so the result is never 0 |
| Pagination.Params | backend/controllers/matchScheduleController.js:27-29 | Page and limit are the readings of the queries by `parseInt`, falling back to the default on a falsy result (1 and 10 by default), hence non-zero; the offset is (page - 1) * limit; without a page query the offset is 0 |
| Pagination.TotalPages | backend/controllers/matchScheduleController.js:55 | totalPages is the ceiling of count / limit, for positive and negative limits alike |
| Pagination.EveryRowOnOnePage | backend/controllers/matchScheduleController.js:29-39 | With a positive limit, every row lies on exactly one page, numbered from 1 to totalPages |
| Pagination.PastLastPageEmpty | backend/controllers/matchScheduleController.js:29-55 | A page past totalPages starts beyond the last row and returns nothing |

## Left out

- Database failures, transactions and concurrency. Each handler runs to completion on a consistent store. The lost-update race is not modelled: two concurrent read-modify-write credits can lose one. The error path of the backend helper (`return false`) needs a failing store, so it is also absent.
- Authentication and role middleware (JWT, `requireAdmin`). The caller's user id is a parameter.
- CRUD on teams, users and matches other than what is listed above; `getLeaderboardStats`, because it averages in floating point; the team and user listings attached to responses.
- Date validation (`Joi.date()`). The date is opaque text that the model carries through unchanged.
- Request-body coercion by Joi, such as numeric strings becoming numbers and unknown keys being rejected. Bodies are modelled after conversion, with `None` for an absent key. The raw value of a text pick sent to `createPrediction` is modelled (`pickIsText`); the other places where a handler reads the raw body are listed below.
- Lifecycle.UpdateMatch: `updateMatchSchedule` writes, tests and settles with the raw body rather than the converted value (backend/controllers/matchScheduleController.js:259-274). The model treats both handlers alike, with scores as numbers and the flag as a boolean. Two consequences are not modelled. Text scores reach the helper, whose `>` then compares strings: `"2" > "10"` holds, so a 2-10 result would settle team 1 as the winner. A raw `is_finished: "false"` is truthy at line 270, so on an open match the helper runs and credits while the stored flag stays false, and every repeat credits again.
- Legacy.LegacyUpdateMatchSchedule: `skor1 || skor2` at line 137 reads the raw body, so a text `"0"` is truthy and fires the trigger; the model's scores are numbers.
- Domain.OfMatch: its contract states the count and membership of the match's predictions, not their order; the `findAll` at controllers/predictionController.js:294-297 has no ORDER BY, so the order of the report entries is not promised.
- Legacy.LegacyUpdateMatch: an explicit `undefined` score is treated as absent (left as stored), which is how the ORM ignores undefined attributes.
- AdminSettlement.UpdateStatuses: a prediction whose user row is missing makes the handler throw after earlier writes. It is modelled as a 500 with no writes. The foreign key with cascading delete rules the case out.
- Leaderboard.Sort: usernames compare by character code. The database collation may be case-insensitive.
- Leaderboard.UserRankCountsAhead: it requires unique ids and usernames, which are the primary key and the unique index on `users`.
- Pagination: how the database treats a negative `LIMIT` or `OFFSET` is not modelled. Only the arithmetic and the positive-limit paging lemmas are. The root controller repeats the same paging code.
- Settlement.CreditAll: `poin` is an INTEGER column, so an increment past 2^31-1 fails in the database; the model's integers are unbounded.
- Legacy.LegacyUpdateMatchSchedule: the handler calls the helper as `this.updatePredictionStatusesForMatch` (line 138). If the route registers the static method unbound, `this` is undefined and the call throws after the write. The route file of the root controller is not part of this model, so the corrected member assumes the call reaches the helper.
- Legacy.UpdateAllFinished: the list of finished match ids that the query returns is a parameter. It is required to be exactly the finished matches, each once, in the order the query returns them.
- HTTP status texts, JSON formatting and logging.

## Findings

| source | as written | input that shows it | evidently intended | confidence | as-written member | corrected member |
|---|---|---|---|---|---|---|
| controllers/matchScheduleController.js:113 | `updateMatchSchedule` validates with `matchScheduleUpdateSchema`, which the file never defines or imports. The ReferenceError lands in the catch block, so every request answers 500 and nothing is written or settled | a PATCH with `{ skor1: 2, skor2: 0 }` on an open 0-0 match that has a team-1 prediction | validate with the update schema, write the body, and settle with the legacy helper when a truthy score reaches a 0-0 match | not executed | Legacy.LegacyUpdateMatchScheduleAsWritten | Legacy.LegacyUpdateMatchSchedule |

=== FILE: adminsettle.dfy ===
/** The admin route `PUT /update-status/:match_id` (`updatePredictionStatuses`):
    settles a match on demand with the draw-sentinel rule and SQL increments.
    It refuses a 0-0 score and does not look at the finished flag or at any
    earlier settlement. */
module AdminSettlement {
  import opened Domain
  import opened Outcome
  import opened Settlement

  /** One entry of the response's `updates` list. */
  datatype Update = Update(userId: int, username: string, pick: int, status: bool, pointsAwarded: int)

  /** The response payload. */
  datatype Report = Report(winner: int, isDraw: bool, totalPredictions: int, updates: seq<Update>)

  /** Every prediction of the match has a user row; the foreign key on
      `predictions.user_id` with cascading delete keeps this true. */
  predicate OwnersKnown(preds: seq<Prediction>, matchId: int, users: map<int, Account>)
  {
    forall i :: 0 <= i < |preds| && preds[i].matchId == matchId ==> preds[i].userId in users
  }

  /** The entry the loop pushes for one prediction. */
  function UpdateFor(p: Prediction, rule: Rule, users: map<int, Account>): Update
    requires p.userId in users
  {
    var ok := Correct(rule, p.predictedTeam);
    Update(p.userId, users[p.userId].username, p.predictedTeam, ok, if ok then Reward else 0)
  }

  /** The `updates` list: one entry per prediction of the match, in the
      order the query returns them. */
  function Updates(preds: seq<Prediction>, matchId: int, rule: Rule, users: map<int, Account>): (r: seq<Update>)
    requires OwnersKnown(preds, matchId, users)
    ensures |r| == CountFor(preds, matchId)
    ensures forall j :: 0 <= j < |r| ==>
      && r[j].userId == OfMatch(preds, matchId)[j].userId
      && r[j].pick == OfMatch(preds, matchId)[j].predictedTeam
      && r[j].status == Correct(rule, r[j].pick)
      && r[j].pointsAwarded == (if r[j].status then Reward else 0)
      && r[j].userId in users && r[j].username == users[r[j].userId].username
  {
    var ms := OfMatch(preds, matchId);
    assert forall j :: 0 <= j < |ms| ==> ms[j].userId in users by {
      forall j | 0 <= j < |ms|
        ensures ms[j].userId in users
      {
        var i :| 0 <= i < |preds| && preds[i] == ms[j];
      }
    }
    seq(|ms|, j requires 0 <= j < |ms| => UpdateFor(ms[j], rule, users))
  }

  /** `updatePredictionStatuses`: 404 for an unknown match, 400 for a 0-0
      score, otherwise one sweep.  A prediction without a user row would make
      the handler fail while building its response; that case is reported as
      a server error here. */
  function UpdateStatuses(st: Store, matchId: int): (r: Result<(Store, Report)>)
    ensures matchId !in st.matches ==> r == Err(MatchNotFound)
    ensures matchId in st.matches && st.matches[matchId].skor1 == 0 && st.matches[matchId].skor2 == 0 ==>
      r == Err(NotFinishedYet)
    ensures (matchId in st.matches && !(st.matches[matchId].skor1 == 0 && st.matches[matchId].skor2 == 0)
             && !OwnersKnown(st.predictions, matchId, st.users)) ==> r == Err(ServerError)
    ensures r.Ok? <==>
      && matchId in st.matches
      && !(st.matches[matchId].skor1 == 0 && st.matches[matchId].skor2 == 0)
      && OwnersKnown(st.predictions, matchId, st.users)
    ensures r.Ok? ==>
      var m := st.matches[matchId];
      var (after, report) := r.value;
      && after.teams == st.teams && after.matches == st.matches
      && SettledUnder(after.predictions, matchId, RuleOf(m))
      && SameExceptStatus(after.predictions, st.predictions)
      && (forall i :: 0 <= i < |st.predictions| && st.predictions[i].matchId != matchId ==>
            after.predictions[i] == st.predictions[i])
      && after.users.Keys == st.users.Keys
      && (forall u :: u in st.users ==>
            after.users[u] ==
            st.users[u].(poin := Bumped(st.users[u].poin, Wins(st.predictions, matchId, RuleOf(m), u), SqlIncrement)))
      && (report.isDraw <==> m.skor1 == m.skor2)
      && report.winner == (if m.skor1 > m.skor2 then m.team1 else if m.skor2 > m.skor1 then m.team2 else DrawPick)
      && report.totalPredictions == |report.updates| == CountFor(st.predictions, matchId)
      && (forall j :: 0 <= j < |report.updates| ==>
            && report.updates[j].userId == OfMatch(st.predictions, matchId)[j].userId
            && report.updates[j].pick == OfMatch(st.predictions, matchId)[j].predictedTeam
            && report.updates[j].status == Correct(RuleOf(m), report.updates[j].pick)
            && report.updates[j].pointsAwarded == (if report.updates[j].status then Reward else 0)
            && report.updates[j].userId in st.users
            && report.updates[j].username == st.users[report.updates[j].userId].username)
  {
    if matchId !in st.matches then Err(MatchNotFound)
    else
      var m := st.matches[matchId];
      if m.skor1 == 0 && m.skor2 == 0 then Err(NotFinishedYet)
      else if !OwnersKnown(st.predictions, matchId, st.users) then Err(ServerError)
      else
        var v := Decide(m.skor1, m.skor2);
        var updates := Updates(st.predictions, matchId, RuleOf(m), st.users);
        Ok((Settle(st, matchId, RuleOf(m), SqlIncrement),
            Report(WinnerId(v, m.team1, m.team2), v == Draw, CountFor(st.predictions, matchId), updates)))
  }

  /** Nothing guards against a second call: it writes the same statuses again
      and credits every correct pick a second time. */
  lemma {:induction false} SecondCallCreditsAgain(st: Store, matchId: int)
    requires UpdateStatuses(st, matchId).Ok?
    ensures var once := UpdateStatuses(st, matchId).value.0;
      && UpdateStatuses(once, matchId).Ok?
      && var twice := UpdateStatuses(once, matchId).value.0;
         && twice.predictions == once.predictions
         && forall u :: u in st.users ==>
              twice.users[u].poin ==
              Bumped(st.users[u].poin, 2 * Wins(st.predictions, matchId, RuleOf(st.matches[matchId]), u), SqlIncrement)
  {
    var rule := RuleOf(st.matches[matchId]);
    var once := UpdateStatuses(st, matchId).value.0;
    assert once == Settle(st, matchId, rule, SqlIncrement);
    assert OwnersKnown(once.predictions, matchId, once.users) by {
      forall i | 0 <= i < |once.predictions| && once.predictions[i].matchId == matchId
        ensures once.predictions[i].userId in once.users
      {
        assert SamePick(once.predictions[i], st.predictions[i]);
      }
    }
    var twice := UpdateStatuses(once, matchId).value.0;
    assert twice == Settle(once, matchId, rule, SqlIncrement);
    RestatusIdempotent(st.predictions, matchId, rule);
    forall u | u in st.users
      ensures twice.users[u].poin == Bumped(st.users[u].poin, 2 * Wins(st.predictions, matchId, rule, u), SqlIncrement)
    {
      var k := Wins(st.predictions, matchId, rule, u);
      assert once.users[u].poin == Bumped(st.users[u].poin, k, SqlIncrement);
      WinsIgnoresStatus(once.predictions, st.predictions, matchId, rule, u);
      assert twice.users[u].poin == Bumped(once.users[u].poin, k, SqlIncrement);
      BumpedDouble(st.users[u].poin, once.users[u].poin, twice.users[u].poin, k, SqlIncrement);
    }
  }
}

=== FILE: admission.dfy ===
/** Prediction admission (`createPrediction`): an ordered chain of refusals,
    each decided before anything is written, then an insert of a pending
    prediction.  There is no upsert: a second submission is refused. */
module Admission {
  import opened Domain

  /** A prediction request body; a missing or non-integer field is `None`.
      The schema accepts a numeric string such as `"5"` as the number it
      spells, but the handler goes on with the raw body: `pickIsText` records
      that the pick arrived as such a string. */
  datatype PredictionBody = PredictionBody(matchId: Option<int>, pick: Option<int>, pickIsText: bool)

  /** The schema: a positive match id and a non-negative team id (0 = draw). */
  predicate ValidBody(b: PredictionBody)
  {
    b.matchId.Some? && b.matchId.value > 0 && b.pick.Some? && b.pick.value >= 0
  }

  /** `req.user && req.user.id`: an id of 0 is falsy and counts as absent. */
  predicate Authenticated(user: Option<int>)
  {
    user.Some? && user.value != 0
  }

  /** The "already played" test: any positive score.  `is_finished` is not
      consulted. */
  predicate Scored(m: Match)
  {
    m.skor1 > 0 || m.skor2 > 0
  }

  predicate PickAllowed(m: Match, pick: int)
  {
    pick == DrawPick || pick == m.team1 || pick == m.team2
  }

  /** The pick test on the raw body: `!==` never equates a string with a
      number, so a pick sent as text is never allowed. */
  predicate RawPickAllowed(m: Match, body: PredictionBody)
    requires body.pick.Some?
  {
    !body.pickIsText && PickAllowed(m, body.pick.value)
  }

  /** `createPrediction` for the authenticated `user`; `rowId` is the key the
      table assigns to a new row. */
  function CreatePrediction(st: Store, body: PredictionBody, user: Option<int>, rowId: int): (r: Result<Store>)
    ensures r == Err(Schema) <==> !ValidBody(body)
    ensures r == Err(AuthRequired) <==> ValidBody(body) && !Authenticated(user)
    ensures r == Err(MatchNotFound) <==>
      ValidBody(body) && Authenticated(user) && body.matchId.value !in st.matches
    ensures r == Err(MatchScored) <==>
      ValidBody(body) && Authenticated(user) && body.matchId.value in st.matches
      && Scored(st.matches[body.matchId.value])
    ensures r == Err(InvalidPick) <==>
      ValidBody(body) && Authenticated(user) && body.matchId.value in st.matches
      && !Scored(st.matches[body.matchId.value])
      && !RawPickAllowed(st.matches[body.matchId.value], body)
    ensures r == Err(AlreadyPredicted) <==>
      ValidBody(body) && Authenticated(user) && body.matchId.value in st.matches
      && !Scored(st.matches[body.matchId.value])
      && RawPickAllowed(st.matches[body.matchId.value], body)
      && HasPick(st.predictions, user.value, body.matchId.value)
    // a request that passes every check is admitted
    ensures r.Ok? <==>
      ValidBody(body) && Authenticated(user) && body.matchId.value in st.matches
      && !Scored(st.matches[body.matchId.value])
      && RawPickAllowed(st.matches[body.matchId.value], body)
      && !HasPick(st.predictions, user.value, body.matchId.value)
    ensures r.Ok? ==>
      && r.value.teams == st.teams && r.value.matches == st.matches && r.value.users == st.users
      && r.value.predictions == st.predictions + [Prediction(rowId, user.value, body.matchId.value, body.pick.value, None)]
    ensures r.Ok? && UniquePicks(st.predictions) ==> UniquePicks(r.value.predictions)
  {
    if !ValidBody(body) then Err(Schema)
    else if !Authenticated(user) then Err(AuthRequired)
    else if body.matchId.value !in st.matches then Err(MatchNotFound)
    else
      var m := st.matches[body.matchId.value];
      if Scored(m) then Err(MatchScored)
      else if !RawPickAllowed(m, body) then Err(InvalidPick)
      else if HasPick(st.predictions, user.value, body.matchId.value) then Err(AlreadyPredicted)
      else
        var p := Prediction(rowId, user.value, body.matchId.value, body.pick.value, None);
        Ok(st.(predictions := st.predictions + [p]))
  }

  /** Admission looks at the score, not at the finished flag: a match
      finished at 0-0 still accepts predictions. */
  lemma GoallessFinishedMatchAdmits(st: Store, body: PredictionBody, user: int, rowId: int)
    requires ValidBody(body) && user != 0
    requires body.matchId.value in st.matches
    requires st.matches[body.matchId.value].isFinished
    requires st.matches[body.matchId.value].skor1 == 0 && st.matches[body.matchId.value].skor2 == 0
    requires RawPickAllowed(st.matches[body.matchId.value], body)
    requires !HasPick(st.predictions, user, body.matchId.value)
    ensures CreatePrediction(st, body, Some(user), rowId).Ok?
  {
  }

  /** One prediction per user and match, with no upsert: once a prediction is
      in, any later admissible submission for the same match is refused, so
      the stored row keeps its pick and status. */
  lemma SecondSubmissionRefused(st: Store, first: PredictionBody, again: PredictionBody, user: int, row1: int, row2: int)
    requires CreatePrediction(st, first, Some(user), row1).Ok?
    requires ValidBody(again) && again.matchId == first.matchId
    requires RawPickAllowed(st.matches[first.matchId.value], again)
    ensures CreatePrediction(CreatePrediction(st, first, Some(user), row1).value, again, Some(user), row2)
            == Err(AlreadyPredicted)
  {
    var st1 := CreatePrediction(st, first, Some(user), row1).value;
    assert st1.predictions[|st.predictions|].userId == user;
  }

  /** A pick sent as a numeric string passes the schema and is then refused
      as invalid, even `"0"` for a draw or the text of a team of the match. */
  lemma TextPickRefused(st: Store, body: PredictionBody, user: int, rowId: int)
    requires ValidBody(body) && body.pickIsText && user != 0
    requires body.matchId.value in st.matches && !Scored(st.matches[body.matchId.value])
    ensures CreatePrediction(st, body, Some(user), rowId) == Err(InvalidPick)
  {
  }
}

=== FILE: domain.dfy ===
/** The entities of the prediction backend, with the ORM replaced by an
    in-memory store.  Identifiers are the integer primary keys of the
    relational tables. */
module Domain {

  datatype Option<+T> = None | Some(value: T)

  /** The value, or `default` when there is none. */
  function Or<T>(o: Option<T>, default: T): T
  {
    match o
    case None => default
    case Some(v) => v
  }

  /** A row of `match_schedules`.  Scores are plain integers: the validated
      paths only ever store non-negative ones, the unvalidated legacy paths
      may store anything.  `date` is kept as opaque text. */
  datatype Match = Match(
    team1: int,
    team2: int,
    date: string,
    time: string,
    skor1: int,
    skor2: int,
    isFinished: bool)

  /** A row of `predictions`.  `predictedTeam` is a team id or the draw
      sentinel 0; `status` is null (pending), true (correct) or false. */
  datatype Prediction = Prediction(
    id: int,
    userId: int,
    matchId: int,
    predictedTeam: int,
    status: Option<bool>)

  datatype Role = UserRole | AdminRole

  /** A row of `users` without its key; `poin` is a nullable column. */
  datatype Account = Account(username: string, poin: Option<int>, role: Role)

  datatype Store = Store(
    teams: set<int>,
    matches: map<int, Match>,
    predictions: seq<Prediction>,
    users: map<int, Account>)

  /** Points credited for one correct prediction. */
  const Reward: int := 10

  /** The value of `predicted_team_id` that stands for "draw". */
  const DrawPick: int := 0

  /** Why a request was refused; each reason has a fixed HTTP status. */
  datatype Reason =
    | Schema            // 400, body fails the validation schema
    | AuthRequired      // 401, no authenticated user id
    | MatchNotFound     // 404
    | Team1NotFound     // 404
    | Team2NotFound     // 404
    | SameTeams         // 400, a team cannot play against itself
    | MatchScored       // 400, cannot predict on a match with a score
    | InvalidPick       // 400, pick is neither team nor the draw sentinel
    | AlreadyPredicted  // 400, one prediction per user and match
    | NotFinishedYet    // 400, a 0-0 match cannot be settled by the admin route
    | AlreadyFinished   // 400, the finish route refuses a finished match
    | NotRanked         // 404, the user is not in the role-user ranking
    | ServerError       // 500

  /** The outcome of a request: a value, or a refusal that leaves the store as
      it was (every refusal in the core is decided before the first write). */
  datatype Result<+T> = Ok(value: T) | Err(reason: Reason)

  /** `poin || 0` and `null + n` in JavaScript both read a null as 0. */
  function PoinOrZero(p: Option<int>): int
  {
    Or(p, 0)
  }

  /** The unique index on `(user_id, match_schedule_id)`. */
  predicate UniquePicks(preds: seq<Prediction>)
  {
    forall i, j :: 0 <= i < j < |preds| ==>
      preds[i].userId != preds[j].userId || preds[i].matchId != preds[j].matchId
  }

  /** True when `user` already has a prediction for `matchId`. */
  predicate HasPick(preds: seq<Prediction>, user: int, matchId: int)
  {
    exists i :: 0 <= i < |preds| && preds[i].userId == user && preds[i].matchId == matchId
  }

  /** Number of predictions that belong to `matchId`. */
  function CountFor(preds: seq<Prediction>, matchId: int): (n: nat)
    ensures n <= |preds|
  {
    if preds == [] then 0
    else (if preds[0].matchId == matchId then 1 else 0) + CountFor(preds[1..], matchId)
  }

  /** The predictions of `matchId` in table order: what
      `findAll({ where: { match_schedule_id } })` returns. */
  function OfMatch(preds: seq<Prediction>, matchId: int): (r: seq<Prediction>)
    ensures |r| == CountFor(preds, matchId)
    ensures forall j :: 0 <= j < |r| ==> r[j].matchId == matchId && r[j] in preds
    ensures forall i :: 0 <= i < |preds| && preds[i].matchId == matchId ==> preds[i] in r
  {
    if preds == [] then []
    else
      var rest := OfMatch(preds[1..], matchId);
      assert forall i :: 1 <= i < |preds| ==> preds[i] == preds[1..][i - 1];
      if preds[0].matchId == matchId then [preds[0]] + rest else rest
  }
}

=== FILE: leaderboard.dfy ===
/** The leaderboard controller: role-`user` accounts ordered by `poin`
    descending (a NULL last, as MySQL sorts it), ties broken by `username`
    ascending; the top ten with 1-based ranks, and a user's own rank in the
    same ordering. */
module Leaderboard {
  import opened Domain

  /** A row of `users` with its key. */
  datatype Row = Row(id: int, account: Account)

  // ------------------------------------------------------------ the order

  /** `username ASC`, comparing character codes; a proper prefix comes first. */
  predicate LexLe(a: string, b: string)
    decreases |a|
  {
    |a| == 0 || (|b| > 0 && (a[0] < b[0] || (a[0] == b[0] && LexLe(a[1..], b[1..]))))
  }

  lemma {:induction false} LexLeRefl(a: string)
    ensures LexLe(a, a)
    decreases |a|
  {
    if |a| > 0 {
      LexLeRefl(a[1..]);
    }
  }

  lemma {:induction false} LexLeTotal(a: string, b: string)
    ensures LexLe(a, b) || LexLe(b, a)
    decreases |a|
  {
    if |a| > 0 && |b| > 0 && a[0] == b[0] {
      LexLeTotal(a[1..], b[1..]);
    }
  }

  lemma {:induction false} LexLeTrans(a: string, b: string, c: string)
    requires LexLe(a, b) && LexLe(b, c)
    ensures LexLe(a, c)
    decreases |a|
  {
    if |a| > 0 && a[0] == b[0] && b[0] == c[0] {
      LexLeTrans(a[1..], b[1..], c[1..]);
    }
  }

  lemma {:induction false} LexLeAntisym(a: string, b: string)
    requires LexLe(a, b) && LexLe(b, a)
    ensures a == b
    decreases |a|
  {
    if |a| > 0 {
      LexLeAntisym(a[1..], b[1..]);
      assert a == [a[0]] + a[1..] && b == [b[0]] + b[1..];
    }
  }

  /** `poin DESC` with NULLs last: `p` sorts strictly above `q`. */
  predicate PoinAbove(p: Option<int>, q: Option<int>)
  {
    p.Some? && (q.None? || p.value > q.value)
  }

  /** `r` may be listed before `s`. */
  predicate Before(r: Row, s: Row)
  {
    || PoinAbove(r.account.poin, s.account.poin)
    || (r.account.poin == s.account.poin && LexLe(r.account.username, s.account.username))
  }

  /** `r` ranks strictly ahead of `s`: more points, or as many and an earlier
      username. */
  predicate Ahead(r: Row, s: Row)
  {
    Before(r, s) && !Before(s, r)
  }

  lemma BeforeRefl(r: Row)
    ensures Before(r, r)
  {
    LexLeRefl(r.account.username);
  }

  lemma BeforeTotal(r: Row, s: Row)
    ensures Before(r, s) || Before(s, r)
  {
    LexLeTotal(r.account.username, s.account.username);
  }

  lemma BeforeTrans(r: Row, s: Row, t: Row)
    requires Before(r, s) && Before(s, t)
    ensures Before(r, t)
  {
    if r.account.poin == s.account.poin && s.account.poin == t.account.poin {
      LexLeTrans(r.account.username, s.account.username, t.account.username);
    }
  }

  lemma BeforeAntisym(r: Row, s: Row)
    requires Before(r, s) && Before(s, r)
    ensures r.account.poin == s.account.poin && r.account.username == s.account.username
  {
    LexLeAntisym(r.account.username, s.account.username);
  }

  predicate Sorted(s: seq<Row>)
  {
    forall i, j :: 0 <= i < j < |s| ==> Before(s[i], s[j])
  }

  predicate NoDups(s: seq<Row>)
  {
    forall i, j :: 0 <= i < j < |s| ==> s[i] != s[j]
  }

  // ------------------------------------------------------------ sorting

  function Insert(x: Row, s: seq<Row>): (r: seq<Row>)
    requires Sorted(s)
    ensures |r| == |s| + 1
    ensures Sorted(r)
    ensures multiset(r) == multiset(s) + multiset{x}
    ensures forall k :: 0 <= k < |r| ==> r[k] == x || r[k] in s
  {
    if s == [] then [x]
    else if Before(x, s[0]) then
      PrependSorted(x, s);
      [x] + s
    else
      BeforeTotal(x, s[0]);
      var rest := Insert(x, s[1..]);
      HeadBeforeAll(s[0], s[1..], x, rest);
      assert s == [s[0]] + s[1..];
      [s[0]] + rest
  }

  /** A row ranked no later than the head of a sorted list can go first. */
  lemma PrependSorted(x: Row, s: seq<Row>)
    requires Sorted(s) && s != [] && Before(x, s[0])
    ensures Sorted([x] + s)
  {
    forall j | 0 <= j < |s|
      ensures Before(x, s[j])
    {
      if j > 0 {
        BeforeTrans(x, s[0], s[j]);
      }
    }
    assert forall j :: 1 <= j < |[x] + s| ==> ([x] + s)[j] == s[j - 1];
  }

  /** A row ranked no later than every row of `s` and than `x` is ranked no
      later than any row drawn from `s` and `x`. */
  lemma HeadBeforeAll(h: Row, s: seq<Row>, x: Row, rest: seq<Row>)
    requires forall j :: 0 <= j < |s| ==> Before(h, s[j])
    requires Before(h, x)
    requires forall k :: 0 <= k < |rest| ==> rest[k] == x || rest[k] in s
    ensures forall k :: 0 <= k < |rest| ==> Before(h, rest[k])
  {
    forall k | 0 <= k < |rest|
      ensures Before(h, rest[k])
    {
      if rest[k] != x {
        var j :| 0 <= j < |s| && s[j] == rest[k];
      }
    }
  }

  /** Inserting a row not yet present keeps the rows distinct. */
  lemma {:induction false} InsertNoDups(x: Row, s: seq<Row>)
    requires Sorted(s) && NoDups(s) && x !in s
    ensures NoDups(Insert(x, s))
    decreases |s|
  {
    if s != [] && !Before(x, s[0]) {
      assert NoDups(s[1..]) by {
        forall i, j | 0 <= i < j < |s[1..]|
          ensures s[1..][i] != s[1..][j]
        {
          assert s[1..][i] == s[i + 1] && s[1..][j] == s[j + 1];
        }
      }
      InsertNoDups(x, s[1..]);
      var r := Insert(x, s);
      var rest := Insert(x, s[1..]);
      assert r == [s[0]] + rest;
      forall k | 0 <= k < |rest|
        ensures rest[k] != s[0]
      {
        if rest[k] != x {
          var j :| 0 <= j < |s[1..]| && s[1..][j] == rest[k];
          assert s[j + 1] == rest[k];
        }
      }
    }
  }

  /** Insertion sort into the leaderboard order. */
  function Sort(s: seq<Row>): (r: seq<Row>)
    ensures |r| == |s|
    ensures Sorted(r)
    ensures multiset(r) == multiset(s)
    ensures forall k :: 0 <= k < |r| ==> r[k] in s
  {
    if s == [] then []
    else
      var rest := Sort(s[1..]);
      assert s == [s[0]] + s[1..];
      Insert(s[0], rest)
  }

  lemma {:induction false} SortNoDups(s: seq<Row>)
    requires NoDups(s)
    ensures NoDups(Sort(s))
    decreases |s|
  {
    if s != [] {
      assert NoDups(s[1..]) by {
        forall i, j | 0 <= i < j < |s[1..]|
          ensures s[1..][i] != s[1..][j]
        {
          assert s[1..][i] == s[i + 1] && s[1..][j] == s[j + 1];
        }
      }
      SortNoDups(s[1..]);
      var rest := Sort(s[1..]);
      assert s[0] !in rest;
      InsertNoDups(s[0], rest);
    }
  }

  /** `WHERE role = 'user'`, keeping table order. */
  function Players(rows: seq<Row>): (r: seq<Row>)
    ensures forall k :: 0 <= k < |r| ==> r[k] in rows && r[k].account.role == UserRole
    ensures forall x :: x in rows && x.account.role == UserRole ==> x in r
  {
    if rows == [] then []
    else
      var rest := Players(rows[1..]);
      assert rows == [rows[0]] + rows[1..];
      if rows[0].account.role == UserRole then [rows[0]] + rest else rest
  }

  lemma {:induction false} PlayersNoDups(rows: seq<Row>)
    requires NoDups(rows)
    ensures NoDups(Players(rows))
    decreases |rows|
  {
    if rows != [] {
      assert NoDups(rows[1..]) by {
        forall i, j | 0 <= i < j < |rows[1..]|
          ensures rows[1..][i] != rows[1..][j]
        {
          assert rows[1..][i] == rows[i + 1] && rows[1..][j] == rows[j + 1];
        }
      }
      PlayersNoDups(rows[1..]);
      var rest := Players(rows[1..]);
      forall k | 0 <= k < |rest|
        ensures rest[k] != rows[0]
      {
        var j :| 0 <= j < |rows[1..]| && rows[1..][j] == rest[k];
        assert rows[j + 1] == rest[k];
      }
    }
  }

  /** The full ordering both queries share. */
  function Standings(rows: seq<Row>): (r: seq<Row>)
    ensures |r| == |Players(rows)|
    ensures Sorted(r)
    ensures forall k :: 0 <= k < |r| ==> r[k] in rows && r[k].account.role == UserRole
    ensures forall x :: x in rows && x.account.role == UserRole ==> x in r
    ensures multiset(r) == multiset(Players(rows))
  {
    var r := Sort(Players(rows));
    assert forall x :: x in Players(rows) ==> x in r by {
      forall x | x in Players(rows)
        ensures x in r
      {
        assert x in multiset(Players(rows));
      }
    }
    forall k | 0 <= k < |r|
      ensures r[k] in rows && r[k].account.role == UserRole
    {
      var j :| 0 <= j < |Players(rows)| && Players(rows)[j] == r[k];
    }
    r
  }

  // ------------------------------------------------------------ queries

  /** One line of the leaderboard; a NULL `poin` is shown as 0. */
  datatype Entry = Entry(rank: int, id: int, username: string, poin: int)

  /** The leaderboard page holds at most this many users. */
  const PageSize: nat := 10

  function Ranked(s: seq<Row>, from: nat): (r: seq<Entry>)
    ensures |r| == |s|
    ensures forall i :: 0 <= i < |s| ==>
      r[i] == Entry(from + i + 1, s[i].id, s[i].account.username, PoinOrZero(s[i].account.poin))
  {
    if s == [] then [] else [Entry(from + 1, s[0].id, s[0].account.username, PoinOrZero(s[0].account.poin))] + Ranked(s[1..], from + 1)
  }

  /** `getLeaderboard`: the first ten of the standings, ranked 1, 2, ... */
  function GetLeaderboard(rows: seq<Row>): (r: seq<Entry>)
    ensures |r| == (if |Players(rows)| < PageSize then |Players(rows)| else PageSize)
    ensures forall i :: 0 <= i < |r| ==>
      && r[i].rank == i + 1
      && var x := Standings(rows)[i];
         && x in rows && x.account.role == UserRole
         && r[i] == Entry(i + 1, x.id, x.account.username, PoinOrZero(x.account.poin))
    ensures forall i, j :: 0 <= i < j < |r| ==> Before(Standings(rows)[i], Standings(rows)[j])
  {
    var s := Standings(rows);
    Ranked(s[..if |s| < PageSize then |s| else PageSize], 0)
  }

  /** Index of the first row with key `id` (`findIndex`). */
  function FirstIndex(s: seq<Row>, id: int): (k: int)
    ensures -1 <= k < |s|
    ensures k >= 0 ==> s[k].id == id && forall j :: 0 <= j < k ==> s[j].id != id
    ensures k == -1 <==> forall j :: 0 <= j < |s| ==> s[j].id != id
  {
    if s == [] then -1
    else if s[0].id == id then 0
    else
      var k := FirstIndex(s[1..], id);
      assert forall j :: 1 <= j < |s| ==> s[j] == s[1..][j - 1];
      if k == -1 then -1 else k + 1
  }

  /** A user is missing from the standings exactly when no role-`user` row
      carries their id. */
  lemma UnrankedIffAbsent(rows: seq<Row>, userId: int)
    ensures FirstIndex(Standings(rows), userId) == -1 <==>
      forall k :: 0 <= k < |rows| && rows[k].account.role == UserRole ==> rows[k].id != userId
  {
    var s := Standings(rows);
    if FirstIndex(s, userId) == -1 {
      forall k | 0 <= k < |rows| && rows[k].account.role == UserRole
        ensures rows[k].id != userId
      {
        assert rows[k] in rows;
        var j :| 0 <= j < |s| && s[j] == rows[k];
      }
    } else {
      var j := FirstIndex(s, userId);
      var k :| 0 <= k < |rows| && rows[k] == s[j];
    }
  }

  datatype RankInfo = RankInfo(rank: int, username: string, poin: int, totalUsers: int)

  /** `getUserRank`: 404 unless the user is among the role-`user` rows. */
  function GetUserRank(rows: seq<Row>, userId: int): (r: Result<RankInfo>)
    ensures r.Err? <==> forall k :: 0 <= k < |rows| && rows[k].account.role == UserRole ==> rows[k].id != userId
    ensures r.Err? ==> r.reason == NotRanked
    ensures r.Ok? ==>
      var s := Standings(rows);
      && 1 <= r.value.rank <= |s|
      && s[r.value.rank - 1].id == userId
      && (forall j :: 0 <= j < r.value.rank - 1 ==> s[j].id != userId)
      && r.value.username == s[r.value.rank - 1].account.username
      && r.value.poin == PoinOrZero(s[r.value.rank - 1].account.poin)
      && r.value.totalUsers == |Players(rows)|
  {
    var s := Standings(rows);
    var k := FirstIndex(s, userId);
    UnrankedIffAbsent(rows, userId);
    if k == -1 then Err(NotRanked)
    else Ok(RankInfo(k + 1, s[k].account.username, PoinOrZero(s[k].account.poin), |s|))
  }

  // ------------------------------------------------------------ properties

  /** Primary keys and the unique constraint on `username`. */
  predicate UniqueKeys(rows: seq<Row>)
  {
    forall i, j :: 0 <= i < j < |rows| ==>
      rows[i].id != rows[j].id && rows[i].account.username != rows[j].account.username
  }

  /** Number of rows of `s` ranking strictly ahead of `a`. */
  function CountAhead(s: seq<Row>, a: Row): nat
  {
    if s == [] then 0 else (if Ahead(s[0], a) then 1 else 0) + CountAhead(s[1..], a)
  }

  lemma {:induction false} CountAheadInsert(x: Row, s: seq<Row>, a: Row)
    requires Sorted(s)
    ensures CountAhead(Insert(x, s), a) == CountAhead(s, a) + (if Ahead(x, a) then 1 else 0)
    decreases |s|
  {
    if s != [] && !Before(x, s[0]) {
      CountAheadInsert(x, s[1..], a);
      assert Insert(x, s)[1..] == Insert(x, s[1..]);
    }
  }

  /** Sorting does not change how many rows are ahead of anyone. */
  lemma {:induction false} CountAheadSort(s: seq<Row>, a: Row)
    ensures CountAhead(Sort(s), a) == CountAhead(s, a)
    decreases |s|
  {
    if s != [] {
      CountAheadSort(s[1..], a);
      CountAheadInsert(s[0], Sort(s[1..]), a);
    }
  }

  /** A count that is true exactly on a prefix is that prefix's length. */
  lemma {:induction false} CountAheadPrefix(s: seq<Row>, a: Row, k: nat)
    requires k <= |s|
    requires forall j :: 0 <= j < k ==> Ahead(s[j], a)
    requires forall j :: k <= j < |s| ==> !Ahead(s[j], a)
    ensures CountAhead(s, a) == k
    decreases |s|
  {
    if s != [] {
      assert forall j :: 1 <= j < |s| ==> s[1..][j - 1] == s[j];
      CountAheadPrefix(s[1..], a, if k == 0 then 0 else k - 1);
    }
  }

  /** In the standings, with unique usernames, a user's position is the
      number of users ahead of them. */
  lemma PositionCountsAhead(s: seq<Row>, i: int)
    requires Sorted(s) && 0 <= i < |s|
    requires forall j, k :: 0 <= j < k < |s| ==> s[j].account.username != s[k].account.username
    ensures CountAhead(s, s[i]) == i
  {
    forall j | 0 <= j < i
      ensures Ahead(s[j], s[i])
    {
      if Before(s[i], s[j]) {
        BeforeAntisym(s[i], s[j]);
      }
    }
    forall j | i <= j < |s|
      ensures !Ahead(s[j], s[i])
    {
      if j == i {
        BeforeRefl(s[i]);
      }
    }
    CountAheadPrefix(s, s[i], i);
  }

  /** With unique keys in the table, no two standings share an id or a
      username. */
  lemma StandingsKeysDistinct(rows: seq<Row>)
    requires UniqueKeys(rows)
    ensures forall j, l :: 0 <= j < l < |Standings(rows)| ==>
      Standings(rows)[j].id != Standings(rows)[l].id
      && Standings(rows)[j].account.username != Standings(rows)[l].account.username
  {
    var s := Standings(rows);
    assert NoDups(rows);
    PlayersNoDups(rows);
    SortNoDups(Players(rows));
    forall j, l | 0 <= j < l < |s|
      ensures s[j].id != s[l].id && s[j].account.username != s[l].account.username
    {
      var a :| 0 <= a < |rows| && rows[a] == s[j];
      var b :| 0 <= b < |rows| && rows[b] == s[l];
      assert a != b;
      if a > b {
        assert rows[b].id != rows[a].id;
      }
    }
  }

  /** `getUserRank` agrees with the reference definition of a rank: one more
      than the number of role-`user` users with more points, or with as many
      points and an earlier username. */
  lemma UserRankCountsAhead(rows: seq<Row>, k: int)
    requires UniqueKeys(rows)
    requires 0 <= k < |rows| && rows[k].account.role == UserRole
    ensures GetUserRank(rows, rows[k].id).Ok?
    ensures GetUserRank(rows, rows[k].id).value.rank == 1 + CountAhead(Players(rows), rows[k])
  {
    var i := GetUserRank(rows, rows[k].id).value.rank - 1;
    RankedRowIsOwn(rows, k);
    StandingsKeysDistinct(rows);
    CountAheadAt(Players(rows), Standings(rows), i);
  }

  /** A row's position in the sorted list counts the rows of the unsorted
      list ahead of it, when usernames are distinct. */
  lemma CountAheadAt(p: seq<Row>, s: seq<Row>, i: int)
    requires s == Sort(p) && 0 <= i < |s|
    requires forall j, l :: 0 <= j < l < |s| ==> s[j].account.username != s[l].account.username
    ensures CountAhead(p, s[i]) == i
  {
    PositionCountsAhead(s, i);
    CountAheadSort(p, s[i]);
  }

  /** With unique ids, the standings row `getUserRank` finds is the user's own. */
  lemma RankedRowIsOwn(rows: seq<Row>, k: int)
    requires UniqueKeys(rows)
    requires 0 <= k < |rows| && rows[k].account.role == UserRole
    ensures GetUserRank(rows, rows[k].id).Ok?
    ensures Standings(rows)[GetUserRank(rows, rows[k].id).value.rank - 1] == rows[k]
  {
    var s := Standings(rows);
    var i := GetUserRank(rows, rows[k].id).value.rank - 1;
    assert s[i] in rows;
    var here :| 0 <= here < |rows| && rows[here] == s[i];
    assert here == k;
  }

  /** Both queries rank from the same ordering: a user on the leaderboard
      page gets the same rank from `getUserRank`. */
  lemma LeaderboardAgreesWithUserRank(rows: seq<Row>, i: int)
    requires UniqueKeys(rows)
    requires 0 <= i < |GetLeaderboard(rows)|
    ensures GetUserRank(rows, GetLeaderboard(rows)[i].id).Ok?
    ensures GetUserRank(rows, GetLeaderboard(rows)[i].id).value.rank == GetLeaderboard(rows)[i].rank
  {
    var s := Standings(rows);
    var id := GetLeaderboard(rows)[i].id;
    assert s[i].id == id && s[i] in rows;
    StandingsKeysDistinct(rows);
    var rank := GetUserRank(rows, id).value.rank;
    assert rank - 1 <= i;
    assert rank - 1 >= i;
  }
}

=== FILE: legacy.dfy ===
/** The older root controller and the batch route wired to it: a settlement
    helper without a draw sentinel, its score-based trigger, the plain score
    update, and `POST /update-all-finished`, which re-runs the helper over
    every finished match. */
module Legacy {
  import opened Domain
  import opened Outcome
  import opened Settlement
  import Lifecycle
  import TimeFormat

  /** The rule the legacy helper applies to `skor1`/`skor2` as it receives
      them (a raw request value may be undefined). */
  function LegacyRule(skor1: Option<int>, skor2: Option<int>, team1: int, team2: int): Rule
  {
    NoDraws(skor1, skor2, team1, team2)
  }

  /** The legacy `updatePredictionStatusesForMatch`.  It returns nothing, and
      credits with SQL increments. */
  function LegacySettle(st: Store, matchId: int, skor1: Option<int>, skor2: Option<int>, team1: int, team2: int)
    : (r: Store)
    ensures r.teams == st.teams && r.matches == st.matches
    ensures SameExceptStatus(r.predictions, st.predictions)
    ensures SettledUnder(r.predictions, matchId, LegacyRule(skor1, skor2, team1, team2))
    ensures forall i :: 0 <= i < |st.predictions| && st.predictions[i].matchId != matchId ==>
      r.predictions[i] == st.predictions[i]
    // no winner (equal, or a score missing): every pick is wrong, nobody gains
    ensures !(skor1.Some? && skor2.Some? && skor1.value != skor2.value) ==>
      && (forall i :: 0 <= i < |st.predictions| && st.predictions[i].matchId == matchId ==>
            r.predictions[i].status == Some(false))
      && r.users == st.users
    // a decisive score: right exactly when the pick is the winning team
    ensures skor1.Some? && skor2.Some? && skor1.value != skor2.value && team1 != 0 && team2 != 0 ==>
      forall i :: 0 <= i < |st.predictions| && st.predictions[i].matchId == matchId ==>
        r.predictions[i].status ==
        Some(st.predictions[i].predictedTeam == (if skor1.value > skor2.value then team1 else team2))
    ensures r.users.Keys == st.users.Keys
    ensures forall u :: u in st.users ==>
      r.users[u] == st.users[u].(poin := Bumped(st.users[u].poin,
                                                Wins(st.predictions, matchId, LegacyRule(skor1, skor2, team1, team2), u),
                                                SqlIncrement))
  {
    var rule := LegacyRule(skor1, skor2, team1, team2);
    var r := Settle(st, matchId, rule, SqlIncrement);
    if !(skor1.Some? && skor2.Some? && skor1.value != skor2.value) then
      NeverCorrectNoWins(st.predictions, matchId, rule);
      assert forall u :: u in st.users ==> r.users[u] == st.users[u];
      r
    else r
  }

  /** When a rule rewards no pick at all, a sweep credits nobody. */
  lemma NeverCorrectNoWins(preds: seq<Prediction>, matchId: int, rule: Rule)
    requires rule.NoDraws? && !(rule.s1.Some? && rule.s2.Some? && rule.s1.value != rule.s2.value)
    ensures forall u :: Wins(preds, matchId, rule, u) == 0
  {
    forall u
      ensures Wins(preds, matchId, rule, u) == 0
    {
      NoWinsWithoutWinner(preds, matchId, rule, u);
    }
  }

  lemma {:induction false} NoWinsWithoutWinner(preds: seq<Prediction>, matchId: int, rule: Rule, user: int)
    requires rule.NoDraws? && !(rule.s1.Some? && rule.s2.Some? && rule.s1.value != rule.s2.value)
    ensures Wins(preds, matchId, rule, user) == 0
    decreases |preds|
  {
    if preds != [] {
      assert !Correct(rule, preds[0].predictedTeam);
      NoWinsWithoutWinner(preds[1..], matchId, rule, user);
    }
  }

  /** JavaScript truthiness of an optional number. */
  predicate Truthy(v: Option<int>)
  {
    v.Some? && v.value != 0
  }

  /** The legacy trigger: a truthy new score on a match still at 0-0. */
  predicate Triggers(prev: Match, skor1: Option<int>, skor2: Option<int>)
  {
    (Truthy(skor1) || Truthy(skor2)) && prev.skor1 == 0 && prev.skor2 == 0
  }

  /** The legacy `updateMatch`: writes the two scores and nothing else; it
      neither finishes nor settles.  An absent score is left as stored. */
  function LegacyUpdateMatch(st: Store, id: int, skor1: Option<int>, skor2: Option<int>): (r: Result<Store>)
    ensures id !in st.matches ==> r == Err(MatchNotFound)
    ensures id in st.matches ==>
      && r.Ok?
      && r.value.teams == st.teams && r.value.predictions == st.predictions && r.value.users == st.users
      && r.value.matches.Keys == st.matches.Keys
      && (forall k :: k in st.matches && k != id ==> r.value.matches[k] == st.matches[k])
      && r.value.matches[id].isFinished == st.matches[id].isFinished
      && r.value.matches[id].(skor1 := st.matches[id].skor1, skor2 := st.matches[id].skor2) == st.matches[id]
      && r.value.matches[id].skor1 == Or(skor1, st.matches[id].skor1)
      && r.value.matches[id].skor2 == Or(skor2, st.matches[id].skor2)
  {
    if id !in st.matches then Err(MatchNotFound)
    else
      var m := st.matches[id];
      Ok(st.(matches := st.matches[id := m.(skor1 := Or(skor1, m.skor1), skor2 := Or(skor2, m.skor2))]))
  }

  /** The legacy `updateMatchSchedule` as written: its first statement names
      a schema this file never defines, so every request ends in the catch
      block with a 500 before anything is read or written. */
  function LegacyUpdateMatchScheduleAsWritten(st: Store, id: int, body: Lifecycle.UpdateBody): (r: Result<Store>)
    ensures r == Err(ServerError)
  {
    Err(ServerError)
  }

  /** The legacy `updateMatchSchedule` as evidently intended, with the
      backend's update schema in place: write the body, then run the legacy
      helper with the body's raw scores when the trigger fires. */
  function LegacyUpdateMatchSchedule(st: Store, id: int, body: Lifecycle.UpdateBody): (r: Result<Store>)
    ensures !Lifecycle.ValidUpdate(body) ==> r == Err(Schema)
    ensures Lifecycle.ValidUpdate(body) && id !in st.matches ==> r == Err(MatchNotFound)
    ensures Lifecycle.ValidUpdate(body) && id in st.matches ==>
      && r.Ok?
      && r.value.teams == st.teams
      && r.value.matches == st.matches[id := Lifecycle.Apply(st.matches[id], body)]
      && (!Triggers(st.matches[id], body.skor1, body.skor2) ==>
            r.value.predictions == st.predictions && r.value.users == st.users)
      && (Triggers(st.matches[id], body.skor1, body.skor2) ==>
            var rule := LegacyRule(body.skor1, body.skor2, r.value.matches[id].team1, r.value.matches[id].team2);
            && SameExceptStatus(r.value.predictions, st.predictions)
            && SettledUnder(r.value.predictions, id, rule)
            && (forall i :: 0 <= i < |st.predictions| && st.predictions[i].matchId != id ==>
                  r.value.predictions[i] == st.predictions[i])
            && r.value.users.Keys == st.users.Keys
            && forall u :: u in st.users ==>
                 r.value.users[u] ==
                 st.users[u].(poin := Bumped(st.users[u].poin, Wins(st.predictions, id, rule, u), SqlIncrement)))
  {
    if !Lifecycle.ValidUpdate(body) then Err(Schema)
    else if id !in st.matches then Err(MatchNotFound)
    else
      var prev := st.matches[id];
      var m := Lifecycle.Apply(prev, body);
      var written := st.(matches := st.matches[id := m]);
      if Triggers(prev, body.skor1, body.skor2)
      then
        var r := LegacySettle(written, id, body.skor1, body.skor2, m.team1, m.team2);
        assert SettledUnder(Settle(written, id, LegacyRule(body.skor1, body.skor2, m.team1, m.team2), SqlIncrement).predictions,
                            id, LegacyRule(body.skor1, body.skor2, m.team1, m.team2));
        Ok(r)
      else Ok(written)
  }

  /** The discrepancy: on an open 0-0 match with a pick on team 1, a 2-0
      score update settles and credits that pick under the intended
      definition, while the code as written answers 500 and changes nothing. */
  lemma ScheduleUpdateNeverSettlesAsWritten(st: Store, id: int, k: int)
    requires id in st.matches && st.matches[id].skor1 == 0 && st.matches[id].skor2 == 0
    requires st.matches[id].team1 != 0 && st.matches[id].team2 != 0
    requires UniquePicks(st.predictions)
    requires 0 <= k < |st.predictions| && st.predictions[k].matchId == id
    requires st.predictions[k].predictedTeam == st.matches[id].team1
    requires st.predictions[k].userId in st.users && st.users[st.predictions[k].userId].poin.Some?
    ensures var body := Lifecycle.UpdateBody(None, None, None, None, Some(2), Some(0), None);
      && LegacyUpdateMatchScheduleAsWritten(st, id, body) == Err(ServerError)
      && LegacyUpdateMatchSchedule(st, id, body).Ok?
      && var after := LegacyUpdateMatchSchedule(st, id, body).value;
         && after.predictions[k].status == Some(true)
         && after.users[st.predictions[k].userId].poin.value == st.users[st.predictions[k].userId].poin.value + Reward
  {
    var body := Lifecycle.UpdateBody(None, None, None, None, Some(2), Some(0), None);
    var m := Lifecycle.Apply(st.matches[id], body);
    var written := st.(matches := st.matches[id := m]);
    WinsOfUniquePick(written.predictions, id, LegacyRule(Some(2), Some(0), m.team1, m.team2), k);
  }

  /** The trigger reads scores, not the finished flag: a 0-0 final never
      settles, and the match stays open to predictions afterwards. */
  lemma GoallessFinalNeverSettles(st: Store, id: int, body: Lifecycle.UpdateBody)
    requires Lifecycle.ValidUpdate(body) && id in st.matches
    requires body.skor1 == Some(0) && body.skor2 == Some(0)
    ensures LegacyUpdateMatchSchedule(st, id, body).Ok?
    ensures LegacyUpdateMatchSchedule(st, id, body).value.predictions == st.predictions
    ensures LegacyUpdateMatchSchedule(st, id, body).value.users == st.users
  {
  }

  /** A body with only one score fires the trigger, but the helper then
      compares against `undefined`, finds no winner, and marks every pick of
      the match wrong. */
  lemma OneSidedScoreRewardsNobody(st: Store, id: int, body: Lifecycle.UpdateBody)
    requires Lifecycle.ValidUpdate(body) && id in st.matches
    requires st.matches[id].skor1 == 0 && st.matches[id].skor2 == 0
    requires body.skor1.Some? && body.skor1.value > 0 && body.skor2.None?
    ensures LegacyUpdateMatchSchedule(st, id, body).Ok?
    ensures var after := LegacyUpdateMatchSchedule(st, id, body).value;
      && after.users == st.users
      && forall i :: 0 <= i < |st.predictions| && st.predictions[i].matchId == id ==>
           after.predictions[i].status == Some(false)
  {
  }

  // ---------------------------------------------------------------- batch

  /** Decimal text of a natural number, most significant digit first. */
  function NatText(n: nat): (s: string)
    ensures |s| > 0 && forall i :: 0 <= i < |s| ==> TimeFormat.IsDigit(s[i])
    ensures DecimalValue(s) == n
    ensures |s| > 1 ==> s[0] != '0'
  {
    if n < 10 then [TimeFormat.Digit(n)]
    else
      var s := NatText(n / 10) + [TimeFormat.Digit(n % 10)];
      assert s[..|s| - 1] == NatText(n / 10);
      s
  }

  /** The value of a string of decimal digits. */
  function DecimalValue(s: string): int
  {
    if s == [] then 0 else DecimalValue(s[..|s| - 1]) * 10 + TimeFormat.DigitValue(s[|s| - 1])
  }

  /** JavaScript's `${n}` for an integer. */
  function IntText(n: int): string
  {
    if n < 0 then "-" + NatText(-n) else NatText(n)
  }

  /** The `score` field of a batch entry: `${skor1}-${skor2}`. */
  function ScoreText(m: Match): string
  {
    IntText(m.skor1) + "-" + IntText(m.skor2)
  }

  /** One entry of the batch response; `success` is the helper's return value,
      which is `undefined` (`None`) for the legacy helper. */
  datatype BatchEntry = BatchEntry(matchId: int, score: string, success: Option<bool>)

  function RuleFor(m: Match): Rule
  {
    LegacyRule(Some(m.skor1), Some(m.skor2), m.team1, m.team2)
  }

  /** Sum of a user's wins over the listed matches. */
  function TotalWins(preds: seq<Prediction>, ids: seq<int>, matches: map<int, Match>, user: int): nat
    requires forall i :: 0 <= i < |ids| ==> ids[i] in matches
  {
    if ids == [] then 0
    else Wins(preds, ids[0], RuleFor(matches[ids[0]]), user) + TotalWins(preds, ids[1..], matches, user)
  }

  /** One pass of the batch loop: the legacy helper on a listed match, with
      its stored scores. */
  function SweepOne(st: Store, id: int): (r: Store)
    requires id in st.matches
    ensures r.teams == st.teams && r.matches == st.matches
    ensures SameExceptStatus(r.predictions, st.predictions)
    ensures forall i :: 0 <= i < |st.predictions| ==>
      r.predictions[i].status ==
      (if st.predictions[i].matchId == id then Some(Correct(RuleFor(st.matches[id]), st.predictions[i].predictedTeam))
       else st.predictions[i].status)
    ensures r.users.Keys == st.users.Keys
    ensures forall u :: u in st.users ==>
      r.users[u] == st.users[u].(poin := Bumped(st.users[u].poin, Wins(st.predictions, id, RuleFor(st.matches[id]), u), SqlIncrement))
  {
    var m := st.matches[id];
    LegacySettle(st, id, Some(m.skor1), Some(m.skor2), m.team1, m.team2)
  }

  /** The store after the batch loop has visited every listed match in order. */
  function BatchSweep(st: Store, ids: seq<int>): (r: Store)
    requires forall i :: 0 <= i < |ids| ==> ids[i] in st.matches
    ensures r.teams == st.teams && r.matches == st.matches
    ensures SameExceptStatus(r.predictions, st.predictions)
    ensures r.users.Keys == st.users.Keys
    decreases |ids|
  {
    if ids == [] then st
    else
      var st1 := SweepOne(st, ids[0]);
      var r := BatchSweep(st1, ids[1..]);
      SameExceptStatusTrans(r.predictions, st1.predictions, st.predictions);
      r
  }

  /** The entry the batch reports for match `id`. */
  function EntryFor(matches: map<int, Match>, id: int): BatchEntry
    requires id in matches
  {
    BatchEntry(id, ScoreText(matches[id]), None)
  }

  /** The response list: an entry per listed match, in order.  The helper
      leaves the matches as they are, so each entry shows the stored score. */
  function BatchEntries(matches: map<int, Match>, ids: seq<int>): (r: seq<BatchEntry>)
    requires forall i :: 0 <= i < |ids| ==> ids[i] in matches
    ensures |r| == |ids|
    ensures forall j :: 0 <= j < |ids| ==> r[j] == EntryFor(matches, ids[j])
  {
    seq(|ids|, j requires 0 <= j < |ids| => EntryFor(matches, ids[j]))
  }

  /** The loop of the batch route: the legacy helper on each listed match, in
      order, with its stored scores, and one response entry per match. */
  function RunBatch(st: Store, ids: seq<int>): (r: (Store, seq<BatchEntry>))
    requires forall i :: 0 <= i < |ids| ==> ids[i] in st.matches
    ensures r.0.teams == st.teams && r.0.matches == st.matches
    ensures SameExceptStatus(r.0.predictions, st.predictions)
    ensures r.0.users.Keys == st.users.Keys
    ensures |r.1| == |ids|
    ensures forall j :: 0 <= j < |ids| ==> r.1[j] == EntryFor(st.matches, ids[j])
  {
    (BatchSweep(st, ids), BatchEntries(st.matches, ids))
  }

  /** The status a batch over `ids` leaves on prediction `p`. */
  function StatusAfterBatch(p: Prediction, ids: seq<int>, matches: map<int, Match>): Option<bool>
    requires p.matchId in ids ==> p.matchId in matches
  {
    if p.matchId in ids then Some(Correct(RuleFor(matches[p.matchId]), p.predictedTeam)) else p.status
  }

  /** Every prediction of a listed match ends with the legacy status of that
      match's stored score; the others keep theirs. */
  lemma {:induction false} BatchStatuses(st: Store, ids: seq<int>)
    requires forall i :: 0 <= i < |ids| ==> ids[i] in st.matches
    ensures forall i :: 0 <= i < |st.predictions| ==>
      BatchSweep(st, ids).predictions[i].status == StatusAfterBatch(st.predictions[i], ids, st.matches)
    decreases |ids|
  {
    if ids != [] {
      var st1 := SweepOne(st, ids[0]);
      BatchStatuses(st1, ids[1..]);
      forall i | 0 <= i < |st.predictions|
        ensures BatchSweep(st, ids).predictions[i].status == StatusAfterBatch(st.predictions[i], ids, st.matches)
      {
        var p := st.predictions[i];
        assert SamePick(st1.predictions[i], p);
        assert p.matchId in ids <==> p.matchId == ids[0] || p.matchId in ids[1..];
      }
    }
  }

  /** The ids the batch query returns: exactly the finished matches, each once. */
  predicate ListsFinished(st: Store, ids: seq<int>)
  {
    && (forall i :: 0 <= i < |ids| ==> ids[i] in st.matches && st.matches[ids[i]].isFinished)
    && (forall k :: k in st.matches && st.matches[k].isFinished ==> k in ids)
    && (forall i, j :: 0 <= i < j < |ids| ==> ids[i] != ids[j])
  }

  predicate FinishedIn(matches: map<int, Match>, k: int)
  {
    k in matches && matches[k].isFinished
  }

  /** `POST /update-all-finished`: one entry per finished match, whatever its
      score; predictions of finished matches get the legacy status (a draw,
      0-0 included, makes every pick wrong), other predictions are untouched. */
  function UpdateAllFinished(st: Store, ids: seq<int>): (r: (Store, seq<BatchEntry>))
    requires ListsFinished(st, ids)
    ensures |r.1| == |ids|
    ensures forall j :: 0 <= j < |ids| ==> r.1[j] == EntryFor(st.matches, ids[j])
    ensures |r.0.predictions| == |st.predictions|
    ensures forall i :: 0 <= i < |st.predictions| && FinishedIn(st.matches, st.predictions[i].matchId) ==>
      r.0.predictions[i].status ==
      Some(Correct(RuleFor(st.matches[st.predictions[i].matchId]), st.predictions[i].predictedTeam))
    ensures forall i :: 0 <= i < |st.predictions| && !FinishedIn(st.matches, st.predictions[i].matchId) ==>
      r.0.predictions[i] == st.predictions[i]
    ensures forall i :: (0 <= i < |st.predictions| && FinishedIn(st.matches, st.predictions[i].matchId)
                         && st.matches[st.predictions[i].matchId].skor1 == st.matches[st.predictions[i].matchId].skor2) ==>
      r.0.predictions[i].status == Some(false)
    ensures r.0.teams == st.teams && r.0.matches == st.matches
    ensures SameExceptStatus(r.0.predictions, st.predictions)
    ensures r.0.users.Keys == st.users.Keys
    // each user gains 10 per correct pick over all finished matches, by SQL increment
    ensures forall u :: u in st.users ==>
      r.0.users[u] ==
      st.users[u].(poin := Bumped(st.users[u].poin, TotalWins(st.predictions, ids, st.matches, u), SqlIncrement))
  {
    var r := RunBatch(st, ids);
    assert r.0 == BatchSweep(st, ids);
    BatchStatuses(st, ids);
    BatchPoints(st, ids);
    assert forall k :: k in ids <==> FinishedIn(st.matches, k);
    r
  }

  /** Each run of the batch credits every correct pick of every listed
      match again. */
  lemma BatchPoints(st: Store, ids: seq<int>)
    requires forall i :: 0 <= i < |ids| ==> ids[i] in st.matches
    ensures forall u :: u in st.users ==>
      BatchSweep(st, ids).users[u] ==
      st.users[u].(poin := Bumped(st.users[u].poin, TotalWins(st.predictions, ids, st.matches, u), SqlIncrement))
  {
    forall u | u in st.users
      ensures BatchSweep(st, ids).users[u] ==
        st.users[u].(poin := Bumped(st.users[u].poin, TotalWins(st.predictions, ids, st.matches, u), SqlIncrement))
    {
      BatchPointsOf(st, ids, u);
    }
  }

  lemma {:induction false} BatchPointsOf(st: Store, ids: seq<int>, u: int)
    requires forall i :: 0 <= i < |ids| ==> ids[i] in st.matches
    requires u in st.users
    ensures BatchSweep(st, ids).users[u] ==
      st.users[u].(poin := Bumped(st.users[u].poin, TotalWins(st.predictions, ids, st.matches, u), SqlIncrement))
    decreases |ids|
  {
    if ids != [] {
      var st1 := SweepOne(st, ids[0]);
      var k := Wins(st.predictions, ids[0], RuleFor(st.matches[ids[0]]), u);
      var t := TotalWins(st.predictions, ids[1..], st.matches, u);
      assert st1.users[u] == st.users[u].(poin := Bumped(st.users[u].poin, k, SqlIncrement));
      var rest := BatchSweep(st1, ids[1..]);
      assert BatchSweep(st, ids) == rest;
      assert TotalWins(st.predictions, ids, st.matches, u) == k + t;
      BatchPointsOf(st1, ids[1..], u);
      TotalWinsIgnoresStatus(st1.predictions, st.predictions, ids[1..], st.matches, u);
      assert rest.users[u] == st1.users[u].(poin := Bumped(st1.users[u].poin, t, SqlIncrement));
      BumpedTwice(st.users[u].poin, k, t, SqlIncrement);
      assert Bumped(st1.users[u].poin, t, SqlIncrement) == Bumped(st.users[u].poin, k + t, SqlIncrement);
      assert rest.users[u] == st.users[u].(poin := Bumped(st.users[u].poin, k + t, SqlIncrement));
    } else {
      assert BatchSweep(st, ids) == st;
      assert TotalWins(st.predictions, ids, st.matches, u) == 0;
      assert Bumped(st.users[u].poin, 0, SqlIncrement) == st.users[u].poin;
      assert st.users[u].(poin := st.users[u].poin) == st.users[u];
    }
  }

  lemma {:induction false} TotalWinsIgnoresStatus(a: seq<Prediction>, b: seq<Prediction>, ids: seq<int>,
                                                  matches: map<int, Match>, user: int)
    requires SameExceptStatus(a, b)
    requires forall i :: 0 <= i < |ids| ==> ids[i] in matches
    ensures TotalWins(a, ids, matches, user) == TotalWins(b, ids, matches, user)
    decreases |ids|
  {
    if ids != [] {
      WinsIgnoresStatus(a, b, ids[0], RuleFor(matches[ids[0]]), user);
      TotalWinsIgnoresStatus(a, b, ids[1..], matches, user);
    }
  }

  /** A second sweep over the same matches writes the statuses the first
      one wrote. */
  lemma BatchStatusesStable(st: Store, ids: seq<int>)
    requires forall i :: 0 <= i < |ids| ==> ids[i] in st.matches
    ensures BatchSweep(BatchSweep(st, ids), ids).predictions == BatchSweep(st, ids).predictions
  {
    var once := BatchSweep(st, ids);
    var twice := BatchSweep(once, ids);
    BatchStatuses(st, ids);
    BatchStatuses(once, ids);
    forall i | 0 <= i < |twice.predictions|
      ensures twice.predictions[i] == once.predictions[i]
    {
      assert SamePick(once.predictions[i], st.predictions[i]);
      assert SamePick(twice.predictions[i], once.predictions[i]);
    }
  }

  /** Running the batch twice writes the same statuses but doubles every
      credit: there is no already-settled guard. */
  lemma BatchTwiceCreditsTwice(st: Store, ids: seq<int>)
    requires ListsFinished(st, ids)
    ensures var once := UpdateAllFinished(st, ids).0;
      && ListsFinished(once, ids)
      && var twice := UpdateAllFinished(once, ids).0;
         && twice.predictions == once.predictions
         && forall u :: u in st.users ==>
              twice.users[u].poin ==
              Bumped(st.users[u].poin, 2 * TotalWins(st.predictions, ids, st.matches, u), SqlIncrement)
  {
    var once := BatchSweep(st, ids);
    assert UpdateAllFinished(st, ids).0 == once;
    assert once.matches == st.matches;
    var twice := BatchSweep(once, ids);
    assert UpdateAllFinished(once, ids).0 == twice;
    BatchStatusesStable(st, ids);
    forall u | u in st.users
      ensures twice.users[u].poin == Bumped(st.users[u].poin, 2 * TotalWins(st.predictions, ids, st.matches, u), SqlIncrement)
    {
      BatchTwiceOf(st, ids, u);
    }
  }

  lemma BatchTwiceOf(st: Store, ids: seq<int>, u: int)
    requires forall i :: 0 <= i < |ids| ==> ids[i] in st.matches
    requires u in st.users
    ensures var once := BatchSweep(st, ids);
      && (forall i :: 0 <= i < |ids| ==> ids[i] in once.matches)
      && BatchSweep(once, ids).users[u].poin ==
         Bumped(st.users[u].poin, 2 * TotalWins(st.predictions, ids, st.matches, u), SqlIncrement)
  {
    var once := BatchSweep(st, ids);
    var k := TotalWins(st.predictions, ids, st.matches, u);
    BatchPointsOf(st, ids, u);
    assert once.users[u].poin == Bumped(st.users[u].poin, k, SqlIncrement);
    BatchPointsOf(once, ids, u);
    TotalWinsIgnoresStatus(once.predictions, st.predictions, ids, st.matches, u);
    assert BatchSweep(once, ids).users[u].poin == Bumped(once.users[u].poin, k, SqlIncrement);
    BumpedDouble(st.users[u].poin, once.users[u].poin, BatchSweep(once, ids).users[u].poin, k, SqlIncrement);
  }

}

=== FILE: lifecycle.dfy ===
/** The match life cycle of the backend controller: creating a match, the
    score update that implicitly finishes an open match, and the explicit
    finish route.  Settlement runs on the open-to-finished edge only, with the
    draw-sentinel rule and read-modify-write credits. */
module Lifecycle {
  import opened Domain
  import opened Settlement
  import TimeFormat

  /** The backend helper `updatePredictionStatusesForMatch`.  It reports true;
      store failures, the only way it reports false, are not modelled. */
  function SettleMatch(st: Store, matchId: int, skor1: int, skor2: int, team1: int, team2: int): Store
  {
    Settle(st, matchId, DrawSentinel(skor1, skor2, team1, team2), ReadModifyWrite)
  }

  // ---------------------------------------------------------------- update

  /** An update body after schema conversion; absent keys are `None`. */
  datatype UpdateBody = UpdateBody(
    team1: Option<int>,
    team2: Option<int>,
    date: Option<string>,
    time: Option<string>,
    skor1: Option<int>,
    skor2: Option<int>,
    isFinished: Option<bool>)

  /** The update schema: positive team ids, the time pattern, scores >= 0. */
  predicate ValidUpdate(b: UpdateBody)
  {
    && (b.team1.Some? ==> b.team1.value > 0)
    && (b.team2.Some? ==> b.team2.value > 0)
    && (b.time.Some? ==> TimeFormat.IsTime(b.time.value))
    && (b.skor1.Some? ==> b.skor1.value >= 0)
    && (b.skor2.Some? ==> b.skor2.value >= 0)
  }

  function Apply(m: Match, b: UpdateBody): Match
  {
    Match(Or(b.team1, m.team1), Or(b.team2, m.team2), Or(b.date, m.date), Or(b.time, m.time),
          Or(b.skor1, m.skor1), Or(b.skor2, m.skor2), Or(b.isFinished, m.isFinished))
  }

  /** A body carrying a score, sent to an open match, finishes it. */
  function ForceFinish(m: Match, b: UpdateBody): UpdateBody
  {
    if (b.skor1.Some? || b.skor2.Some?) && !m.isFinished then b.(isFinished := Some(true)) else b
  }

  /** `updateMatch` (PUT) and `updateMatchSchedule` (PATCH), which behave alike
      on a body that passed the schema.  The helper is called with the stored
      values after the write, so it sees the new scores and teams. */
  function UpdateMatch(st: Store, id: int, body: UpdateBody): (r: Result<Store>)
    ensures !ValidUpdate(body) ==> r == Err(Schema)
    ensures ValidUpdate(body) && id !in st.matches ==> r == Err(MatchNotFound)
    ensures ValidUpdate(body) && id in st.matches ==> r.Ok?
    ensures r.Ok? ==>
      && r.value.teams == st.teams
      && r.value.matches.Keys == st.matches.Keys
      && (forall k :: k in st.matches && k != id ==> r.value.matches[k] == st.matches[k])
    // every field the body carries is written, every other field is kept
    ensures r.Ok? ==>
      var prev := st.matches[id];
      var m := r.value.matches[id];
      && m.team1 == Or(body.team1, prev.team1) && m.team2 == Or(body.team2, prev.team2)
      && m.date == Or(body.date, prev.date) && m.time == Or(body.time, prev.time)
      && m.skor1 == Or(body.skor1, prev.skor1) && m.skor2 == Or(body.skor2, prev.skor2)
    // a score on an open match finishes it, whatever the body says; otherwise
    // the flag is the body's, or the stored one when the body has none
    ensures r.Ok? ==>
      r.value.matches[id].isFinished ==
      ((!st.matches[id].isFinished && (body.skor1.Some? || body.skor2.Some?))
       || Or(body.isFinished, st.matches[id].isFinished))
    // off the open-to-finished edge nothing is settled or credited
    ensures r.Ok? && !(!st.matches[id].isFinished && r.value.matches[id].isFinished) ==>
      r.value.predictions == st.predictions && r.value.users == st.users
    // on the edge every prediction is settled with the new scores
    ensures r.Ok? && !st.matches[id].isFinished && r.value.matches[id].isFinished ==>
      && SettledUnder(r.value.predictions, id, RuleOf(r.value.matches[id]))
      && SameExceptStatus(r.value.predictions, st.predictions)
      && (forall i :: 0 <= i < |st.predictions| && st.predictions[i].matchId != id ==>
            r.value.predictions[i] == st.predictions[i])
      && r.value.users.Keys == st.users.Keys
      && forall u :: u in st.users ==>
           r.value.users[u] ==
           st.users[u].(poin := Bumped(st.users[u].poin, Wins(st.predictions, id, RuleOf(r.value.matches[id]), u), ReadModifyWrite))
  {
    if !ValidUpdate(body) then Err(Schema)
    else if id !in st.matches then Err(MatchNotFound)
    else
      var prev := st.matches[id];
      var data := ForceFinish(prev, body);
      var m := Apply(prev, data);
      var written := st.(matches := st.matches[id := m]);
      if !prev.isFinished && data.isFinished == Some(true)
      then Ok(SettleMatch(written, id, m.skor1, m.skor2, m.team1, m.team2))
      else Ok(written)
  }

  // ---------------------------------------------------------------- finish

  /** The inline `PUT /:id/finish` handler: refuse an unknown or finished
      match, otherwise finish it and settle with the stored scores. */
  function Finish(st: Store, id: int): (r: Result<Store>)
    ensures id !in st.matches ==> r == Err(MatchNotFound)
    ensures id in st.matches && st.matches[id].isFinished ==> r == Err(AlreadyFinished)
    ensures id in st.matches && !st.matches[id].isFinished ==>
      && r.Ok?
      && r.value.teams == st.teams
      && r.value.matches == st.matches[id := st.matches[id].(isFinished := true)]
      && SettledUnder(r.value.predictions, id, RuleOf(st.matches[id]))
      && SameExceptStatus(r.value.predictions, st.predictions)
      && (forall i :: 0 <= i < |st.predictions| && st.predictions[i].matchId != id ==>
            r.value.predictions[i] == st.predictions[i])
      && r.value.users.Keys == st.users.Keys
      && forall u :: u in st.users ==>
           r.value.users[u] ==
           st.users[u].(poin := Bumped(st.users[u].poin, Wins(st.predictions, id, RuleOf(st.matches[id]), u), ReadModifyWrite))
  {
    if id !in st.matches then Err(MatchNotFound)
    else if st.matches[id].isFinished then Err(AlreadyFinished)
    else
      var m := st.matches[id].(isFinished := true);
      Ok(SettleMatch(st.(matches := st.matches[id := m]), id, m.skor1, m.skor2, m.team1, m.team2))
  }

  /** Finishing twice never settles twice: the second call is refused and,
      being a refusal, changes nothing. */
  lemma FinishOnlyOnce(st: Store, id: int)
    requires Finish(st, id).Ok?
    ensures Finish(Finish(st, id).value, id) == Err(AlreadyFinished)
  {
  }

  /** A stored 0-0 is settled as a draw: draw pickers are correct and gain
      10 points, team pickers are incorrect and gain nothing. */
  lemma FinishGoallessDraw(st: Store, id: int, k: int)
    requires id in st.matches && !st.matches[id].isFinished
    requires st.matches[id].skor1 == 0 && st.matches[id].skor2 == 0
    requires UniquePicks(st.predictions)
    requires 0 <= k < |st.predictions| && st.predictions[k].matchId == id
    requires st.predictions[k].userId in st.users
    ensures Finish(st, id).value.predictions[k].status == Some(st.predictions[k].predictedTeam == DrawPick)
    ensures var u := st.predictions[k].userId;
      Finish(st, id).value.users[u].poin ==
      (if st.predictions[k].predictedTeam == DrawPick
       then Some(PoinOrZero(st.users[u].poin) + Reward)
       else st.users[u].poin)
  {
    WinsOfUniquePick(st.predictions, id, RuleOf(st.matches[id]), k);
  }

  /** The finished flag is not a one-way latch: an update that sets it back
      to false reopens the match, and the next score update settles it again,
      crediting a correct pick a second time. */
  lemma {:induction false} ReopenedMatchIsSettledAgain(st: Store, id: int, k: int, reopen: UpdateBody, rescore: UpdateBody)
    requires id in st.matches && st.matches[id].isFinished
    requires UniquePicks(st.predictions)
    requires 0 <= k < |st.predictions| && st.predictions[k].matchId == id
    requires st.predictions[k].userId in st.users
    requires reopen == UpdateBody(None, None, None, None, None, None, Some(false))
    requires rescore.skor1.Some? && rescore.skor1.value >= 0 && rescore == UpdateBody(None, None, None, None, rescore.skor1, None, None)
    requires Settlement.Correct(RuleOf(st.matches[id].(skor1 := rescore.skor1.value)), st.predictions[k].predictedTeam)
    ensures UpdateMatch(st, id, reopen).Ok?
    ensures var st1 := UpdateMatch(st, id, reopen).value;
      && !st1.matches[id].isFinished
      && UpdateMatch(st1, id, rescore).Ok?
      && var u := st.predictions[k].userId;
         UpdateMatch(st1, id, rescore).value.users[u].poin == Some(PoinOrZero(st.users[u].poin) + Reward)
  {
    var st1 := UpdateMatch(st, id, reopen).value;
    assert st1.predictions == st.predictions && st1.users == st.users;
    var m2 := UpdateMatch(st1, id, rescore).value.matches[id];
    assert m2 == st.matches[id].(skor1 := rescore.skor1.value, isFinished := true);
    WinsOfUniquePick(st.predictions, id, RuleOf(m2), k);
  }

  // ---------------------------------------------------------------- create

  /** A create body after schema conversion; absent keys are `None`. */
  datatype CreateBody = CreateBody(
    team1: Option<int>,
    team2: Option<int>,
    date: Option<string>,
    time: Option<string>,
    skor1: Option<int>,
    skor2: Option<int>)

  /** The create schema: both team ids, a date and a time are required. */
  predicate ValidCreate(b: CreateBody)
  {
    && b.team1.Some? && b.team1.value > 0
    && b.team2.Some? && b.team2.value > 0
    && b.date.Some?
    && b.time.Some? && TimeFormat.IsTime(b.time.value)
    && (b.skor1.Some? ==> b.skor1.value >= 0)
    && (b.skor2.Some? ==> b.skor2.value >= 0)
  }

  /** `createMatch`: schema, then the same-team check before any team lookup,
      then team 1 before team 2.  `newId` is the key the table assigns. */
  function CreateMatch(st: Store, body: CreateBody, newId: int): (r: Result<Store>)
    requires newId !in st.matches
    ensures !ValidCreate(body) ==> r == Err(Schema)
    ensures ValidCreate(body) && body.team1 == body.team2 ==> r == Err(SameTeams)
    ensures ValidCreate(body) && body.team1 != body.team2 && body.team1.value !in st.teams ==>
      r == Err(Team1NotFound)
    ensures (ValidCreate(body) && body.team1 != body.team2 && body.team1.value in st.teams
             && body.team2.value !in st.teams) ==> r == Err(Team2NotFound)
    ensures r.Ok? <==>
      ValidCreate(body) && body.team1 != body.team2 && body.team1.value in st.teams && body.team2.value in st.teams
    ensures r.Ok? ==>
      && r.value.teams == st.teams && r.value.predictions == st.predictions && r.value.users == st.users
      && r.value.matches.Keys == st.matches.Keys + {newId}
      && (forall k :: k in st.matches ==> r.value.matches[k] == st.matches[k])
      && var m := r.value.matches[newId];
         && m.team1 == body.team1.value && m.team2 == body.team2.value && m.team1 != m.team2
         && m.team1 in st.teams && m.team2 in st.teams
         && !m.isFinished
         && m.skor1 == Or(body.skor1, 0) && m.skor2 == Or(body.skor2, 0)
         && m.date == body.date.value
         && m.time == TimeFormat.PadTime(body.time.value)
         && TimeFormat.IsTime(m.time)
  {
    if !ValidCreate(body) then Err(Schema)
    else if body.team1.value == body.team2.value then Err(SameTeams)
    else if body.team1.value !in st.teams then Err(Team1NotFound)
    else if body.team2.value !in st.teams then Err(Team2NotFound)
    else
      TimeFormat.PaddedTimeIsTime(body.time.value);
      var m := Match(body.team1.value, body.team2.value, body.date.value,
                     TimeFormat.PadTime(body.time.value), Or(body.skor1, 0), Or(body.skor2, 0), false);
      Ok(st.(matches := st.matches[newId := m]))
  }
}

=== FILE: outcome.dfy ===
/** Deciding a match's outcome and whether a pick was right.  The backend
    helper and the admin route share one rule (a draw is encoded by the
    sentinel 0 and rewards draw picks); the legacy helper has another (no
    draw sentinel, so an equal score rewards nobody). */
module Outcome {
  import opened Domain

  datatype Verdict = Team1Wins | Team2Wins | Draw

  /** Outcome trichotomy; 0-0 is an ordinary draw. */
  function Decide(skor1: int, skor2: int): (v: Verdict)
    ensures v == Team1Wins <==> skor1 > skor2
    ensures v == Team2Wins <==> skor2 > skor1
    ensures v == Draw <==> skor1 == skor2
  {
    if skor1 > skor2 then Team1Wins
    else if skor2 > skor1 then Team2Wins
    else Draw
  }

  /** `winner_team_id` of the backend helper and the admin route. */
  function WinnerId(v: Verdict, team1: int, team2: int): int
  {
    match v
    case Team1Wins => team1
    case Team2Wins => team2
    case Draw => DrawPick
  }

  /** The correctness rule of the draw-sentinel variants. */
  function IsCorrect(skor1: int, skor2: int, team1: int, team2: int, pick: int): (ok: bool)
    ensures ok <==>
      (skor1 == skor2 && pick == DrawPick) ||
      (skor1 > skor2 && pick == team1) ||
      (skor2 > skor1 && pick == team2)
  {
    var v := Decide(skor1, skor2);
    (v == Draw && pick == DrawPick) || (v != Draw && pick == WinnerId(v, team1, team2))
  }

  /** JavaScript `a > b` where either side may be `undefined` (then false). */
  predicate JsGreater(a: Option<int>, b: Option<int>)
  {
    a.Some? && b.Some? && a.value > b.value
  }

  /** `winner_team_id` of the legacy helper: null unless one side is greater. */
  function LegacyWinner(skor1: Option<int>, skor2: Option<int>, team1: int, team2: int): (w: Option<int>)
    ensures w.Some? <==> skor1.Some? && skor2.Some? && skor1.value != skor2.value
    ensures w.Some? ==> w.value == (if skor1.value > skor2.value then team1 else team2)
  {
    if JsGreater(skor1, skor2) then Some(team1)
    else if JsGreater(skor2, skor1) then Some(team2)
    else None
  }

  /** The legacy rule `winner_team_id && predicted === winner_team_id`; a
      team id of 0 would be falsy and rewards nobody. */
  function LegacyIsCorrect(skor1: Option<int>, skor2: Option<int>, team1: int, team2: int, pick: int): (ok: bool)
    ensures ok <==>
      skor1.Some? && skor2.Some? && pick != 0 &&
      ((skor1.value > skor2.value && pick == team1) || (skor2.value > skor1.value && pick == team2))
  {
    var w := LegacyWinner(skor1, skor2, team1, team2);
    w.Some? && w.value != 0 && pick == w.value
  }

  /** Where the two rules agree: on every decisive score. */
  lemma RulesAgreeOnDecisiveScores(skor1: int, skor2: int, team1: int, team2: int, pick: int)
    requires skor1 != skor2
    requires team1 != 0 && team2 != 0
    ensures LegacyIsCorrect(Some(skor1), Some(skor2), team1, team2, pick) ==
            IsCorrect(skor1, skor2, team1, team2, pick)
  {
  }

  /** Where they diverge: on a draw the sentinel rule rewards exactly the draw
      picks and the legacy rule rewards nobody. */
  lemma RulesDivergeOnDraws(skor: int, team1: int, team2: int, pick: int)
    ensures IsCorrect(skor, skor, team1, team2, pick) <==> pick == DrawPick
    ensures !LegacyIsCorrect(Some(skor), Some(skor), team1, team2, pick)
  {
  }
}

=== FILE: pagination.dfy ===
/** The paging arithmetic of `getAllMatches`: query parameters read with
    `parseInt(..) || default`, an offset of `(page - 1) * limit`, and
    `totalPages = Math.ceil(count / limit)`. */
module Pagination {
  import opened Domain

  const DefaultPage: int := 1
  const DefaultLimit: int := 10

  /** `parseInt(q) || d`: a query value that does not parse (`None`, NaN in
      JavaScript) or parses to 0 is falsy and yields the default. */
  function QueryInt(q: Option<int>, d: int): (r: int)
    ensures r == d || q == Some(r)
    ensures d != 0 ==> r != 0
    ensures q.Some? && q.value != 0 ==> r == q.value
  {
    match q
    case Some(n) => if n != 0 then n else d
    case None => d
  }

  datatype Paging = Paging(page: int, limit: int, offset: int)

  /** The page, limit and offset a request resolves to. */
  function Params(pageQuery: Option<int>, limitQuery: Option<int>): (r: Paging)
    ensures r.page == QueryInt(pageQuery, DefaultPage) && r.limit == QueryInt(limitQuery, DefaultLimit)
    ensures r.page != 0 && r.limit != 0
    ensures r.offset == (r.page - 1) * r.limit
    ensures pageQuery.None? ==> r.page == DefaultPage && r.offset == 0
    ensures limitQuery.None? ==> r.limit == DefaultLimit
  {
    var page := QueryInt(pageQuery, DefaultPage);
    var limit := QueryInt(limitQuery, DefaultLimit);
    Paging(page, limit, (page - 1) * limit)
  }

  /** `Math.ceil(count / limit)` on a non-negative count and a non-zero limit
      (a negative limit is possible: `parseInt("-5")` is truthy). */
  function TotalPages(count: nat, limit: int): (r: int)
    requires limit != 0
    ensures limit > 0 ==> (r - 1) * limit < count <= r * limit
    ensures limit < 0 ==> r * limit <= count < (r - 1) * limit
  {
    if limit > 0 then
      CeilDiv(count, limit)
    else
      var q := count / -limit;
      assert q * -limit <= count < (q + 1) * -limit;
      -q
  }

  /** Ceiling division for a positive divisor. */
  function CeilDiv(n: nat, d: int): (q: int)
    requires d > 0
    ensures (q - 1) * d < n <= q * d
  {
    var q := (n + d - 1) / d;
    assert q * d <= n + d - 1 < (q + 1) * d;
    q
  }

  /** Row `i` of `count` ordered rows is on page `page`: `LIMIT limit OFFSET
      (page - 1) * limit` returns it. */
  predicate OnPage(i: nat, count: nat, page: int, limit: int)
  {
    (page - 1) * limit <= i < page * limit && i < count
  }

  /** With a positive limit, every row appears on exactly one page, and that
      page is numbered between 1 and `totalPages`. */
  lemma EveryRowOnOnePage(count: nat, limit: int, i: nat)
    requires limit > 0 && i < count
    ensures 1 <= i / limit + 1 <= TotalPages(count, limit)
    ensures OnPage(i, count, i / limit + 1, limit)
    ensures forall p :: OnPage(i, count, p, limit) ==> p == i / limit + 1
  {
    var p := i / limit + 1;
    var t := TotalPages(count, limit);
    assert (p - 1) * limit <= i < p * limit;
    if p > t {
      MulMono(t, p - 1, limit);
    }
    forall p' | OnPage(i, count, p', limit)
      ensures p' == p
    {
      if p' < p {
        MulMono(p', p - 1, limit);
      } else if p' > p {
        MulMono(p, p' - 1, limit);
      }
    }
  }

  lemma MulMono(a: int, b: int, c: int)
    requires a <= b && c > 0
    ensures a * c <= b * c
  {
  }

  /** Pages past `totalPages` are empty. */
  lemma PastLastPageEmpty(count: nat, limit: int, page: int)
    requires limit > 0 && page > TotalPages(count, limit)
    ensures (page - 1) * limit >= count
    ensures forall i: nat :: !OnPage(i, count, page, limit)
  {
    MulMono(TotalPages(count, limit), page - 1, limit);
  }
}

=== FILE: settlement.dfy ===
/** The settlement sweep shared by every settlement path: each prediction of
    the match gets a definite status, and each correct one credits its owner.
    The paths differ only in the correctness rule and in how the credit is
    written to `poin`. */
module Settlement {
  import opened Domain
  import opened Outcome

  /** The correctness rule a path applies, with the scores and teams it uses. */
  datatype Rule =
    | DrawSentinel(skor1: int, skor2: int, team1: int, team2: int)
    | NoDraws(s1: Option<int>, s2: Option<int>, t1: int, t2: int)

  function Correct(rule: Rule, pick: int): bool
  {
    match rule
    case DrawSentinel(skor1, skor2, team1, team2) => IsCorrect(skor1, skor2, team1, team2, pick)
    case NoDraws(s1, s2, t1, t2) => LegacyIsCorrect(s1, s2, t1, t2, pick)
  }

  /** The draw-sentinel rule applied to the stored scores and teams of `m`. */
  function RuleOf(m: Match): Rule
  {
    DrawSentinel(m.skor1, m.skor2, m.team1, m.team2)
  }

  /** How a reward reaches the `poin` column. */
  datatype Credit =
    | ReadModifyWrite  // load the user, then store poin + 10; JavaScript reads null as 0
    | SqlIncrement     // SET poin = poin + 10 in SQL; a NULL stays NULL

  function Bump(p: Option<int>, mode: Credit): Option<int>
  {
    match mode
    case ReadModifyWrite => Some(PoinOrZero(p) + Reward)
    case SqlIncrement => if p.None? then None else Some(p.value + Reward)
  }

  /** The value of `poin` after `k` credits, in closed form. */
  function Bumped(p: Option<int>, k: nat, mode: Credit): Option<int>
  {
    if k == 0 then p
    else match mode
      case ReadModifyWrite => Some(PoinOrZero(p) + Reward * k)
      case SqlIncrement => if p.None? then None else Some(p.value + Reward * k)
  }

  /** How many correct predictions `user` holds on `matchId`. */
  function Wins(preds: seq<Prediction>, matchId: int, rule: Rule, user: int): nat
  {
    if preds == [] then 0
    else
      (if preds[0].matchId == matchId && preds[0].userId == user && Correct(rule, preds[0].predictedTeam)
       then 1 else 0)
      + Wins(preds[1..], matchId, rule, user)
  }

  function Mark(p: Prediction, matchId: int, rule: Rule): Prediction
  {
    if p.matchId == matchId then p.(status := Some(Correct(rule, p.predictedTeam))) else p
  }

  /** `p` and `q` are the same prediction, whatever their statuses. */
  predicate SamePick(p: Prediction, q: Prediction)
  {
    p.id == q.id && p.userId == q.userId && p.matchId == q.matchId && p.predictedTeam == q.predictedTeam
  }

  /** `a` and `b` hold the same predictions up to their statuses. */
  predicate SameExceptStatus(a: seq<Prediction>, b: seq<Prediction>)
  {
    |a| == |b| && forall i :: 0 <= i < |a| ==> SamePick(a[i], b[i])
  }

  /** The status half of the sweep: `prediction.update({ status })` for every
      prediction of the match, in table order. */
  function Restatus(preds: seq<Prediction>, matchId: int, rule: Rule): (r: seq<Prediction>)
    ensures |r| == |preds|
    ensures SameExceptStatus(r, preds)
    ensures forall i :: 0 <= i < |preds| && preds[i].matchId == matchId ==>
      r[i].status == Some(Correct(rule, preds[i].predictedTeam))
    ensures forall i :: 0 <= i < |preds| && preds[i].matchId != matchId ==> r[i] == preds[i]
  {
    if preds == [] then []
    else [Mark(preds[0], matchId, rule)] + Restatus(preds[1..], matchId, rule)
  }

  /** The points half of the sweep: each correct prediction credits its owner
      once; an owner without a user row is skipped. */
  function CreditAll(users: map<int, Account>, preds: seq<Prediction>, matchId: int, rule: Rule, mode: Credit)
    : (r: map<int, Account>)
    ensures r.Keys == users.Keys
    ensures forall u :: u in users ==> r[u].username == users[u].username && r[u].role == users[u].role
    ensures forall u :: u in users ==> r[u].poin == Bumped(users[u].poin, Wins(preds, matchId, rule, u), mode)
    decreases |preds|
  {
    if preds == [] then users
    else
      var p := preds[0];
      var next :=
        if p.matchId == matchId && Correct(rule, p.predictedTeam) && p.userId in users
        then users[p.userId := users[p.userId].(poin := Bump(users[p.userId].poin, mode))]
        else users;
      CreditAll(next, preds[1..], matchId, rule, mode)
  }

  /** Every prediction of `matchId` carries the status `rule` gives it. */
  predicate SettledUnder(preds: seq<Prediction>, matchId: int, rule: Rule)
  {
    forall i :: 0 <= i < |preds| && preds[i].matchId == matchId ==>
      preds[i].status == Some(Correct(rule, preds[i].predictedTeam))
  }

  /** One full sweep over the store. */
  function Settle(st: Store, matchId: int, rule: Rule, mode: Credit): (r: Store)
    ensures r.teams == st.teams && r.matches == st.matches
    ensures |r.predictions| == |st.predictions|
    ensures SettledUnder(r.predictions, matchId, rule)
    ensures SameExceptStatus(r.predictions, st.predictions)
    ensures forall i :: 0 <= i < |st.predictions| && st.predictions[i].matchId != matchId ==>
      r.predictions[i] == st.predictions[i]
    ensures UniquePicks(st.predictions) ==> UniquePicks(r.predictions)
    ensures r.users.Keys == st.users.Keys
    ensures forall u :: u in st.users ==>
      r.users[u] == st.users[u].(poin := Bumped(st.users[u].poin, Wins(st.predictions, matchId, rule, u), mode))
  {
    Store(st.teams, st.matches,
          Restatus(st.predictions, matchId, rule),
          CreditAll(st.users, st.predictions, matchId, rule, mode))
  }

  /** Without a prediction on the match a user collects nothing. */
  lemma {:induction false} NoPickNoWins(preds: seq<Prediction>, matchId: int, rule: Rule, user: int)
    requires !HasPick(preds, user, matchId)
    ensures Wins(preds, matchId, rule, user) == 0
    decreases |preds|
  {
    if preds != [] {
      assert !HasPick(preds[1..], user, matchId) by {
        forall i | 0 <= i < |preds[1..]|
          ensures !(preds[1..][i].userId == user && preds[1..][i].matchId == matchId)
        {
          assert preds[1..][i] == preds[i + 1];
        }
      }
      NoPickNoWins(preds[1..], matchId, rule, user);
    }
  }

  /** With one prediction per user and match, a user's wins on a match are
      exactly the correctness of their one prediction: a settlement credits
      each owner 10 points or nothing. */
  lemma {:induction false} WinsOfUniquePick(preds: seq<Prediction>, matchId: int, rule: Rule, k: int)
    requires UniquePicks(preds)
    requires 0 <= k < |preds| && preds[k].matchId == matchId
    ensures Wins(preds, matchId, rule, preds[k].userId) == (if Correct(rule, preds[k].predictedTeam) then 1 else 0)
    decreases |preds|
  {
    var user := preds[k].userId;
    assert UniquePicks(preds[1..]) by {
      forall i, j | 0 <= i < j < |preds[1..]|
        ensures preds[1..][i].userId != preds[1..][j].userId || preds[1..][i].matchId != preds[1..][j].matchId
      {
        assert preds[1..][i] == preds[i + 1] && preds[1..][j] == preds[j + 1];
      }
    }
    if k == 0 {
      assert !HasPick(preds[1..], user, matchId) by {
        forall i | 0 <= i < |preds[1..]|
          ensures !(preds[1..][i].userId == user && preds[1..][i].matchId == matchId)
        {
          assert preds[1..][i] == preds[i + 1];
        }
      }
      NoPickNoWins(preds[1..], matchId, rule, user);
    } else {
      assert preds[1..][k - 1] == preds[k];
      WinsOfUniquePick(preds[1..], matchId, rule, k - 1);
    }
  }

  /** A second sweep with the same rule leaves every status as the first left
      it: statuses are idempotent, unlike points. */
  lemma RestatusIdempotent(preds: seq<Prediction>, matchId: int, rule: Rule)
    ensures Restatus(Restatus(preds, matchId, rule), matchId, rule) == Restatus(preds, matchId, rule)
  {
    var once := Restatus(preds, matchId, rule);
    var twice := Restatus(once, matchId, rule);
    assert forall i :: 0 <= i < |preds| ==> twice[i] == once[i];
  }

  /** Wins depend on who picked what, not on the statuses a sweep writes. */
  lemma {:induction false} WinsIgnoresStatus(a: seq<Prediction>, b: seq<Prediction>, matchId: int, rule: Rule, user: int)
    requires SameExceptStatus(a, b)
    ensures Wins(a, matchId, rule, user) == Wins(b, matchId, rule, user)
    decreases |a|
  {
    if a != [] {
      assert SamePick(a[0], b[0]);
      assert SameExceptStatus(a[1..], b[1..]) by {
        forall i | 0 <= i < |a[1..]|
          ensures SamePick(a[1..][i], b[1..][i])
        {
          assert a[1..][i] == a[i + 1] && b[1..][i] == b[i + 1];
        }
      }
      WinsIgnoresStatus(a[1..], b[1..], matchId, rule, user);
    }
  }

  lemma SameExceptStatusTrans(a: seq<Prediction>, b: seq<Prediction>, c: seq<Prediction>)
    requires SameExceptStatus(a, b) && SameExceptStatus(b, c)
    ensures SameExceptStatus(a, c)
  {
  }

  /** Credits accumulate: `j` credits after `k` credits are `k + j` credits. */
  lemma BumpedTwice(p: Option<int>, k: nat, j: nat, mode: Credit)
    ensures Bumped(Bumped(p, k, mode), j, mode) == Bumped(p, k + j, mode)
  {
  }

  /** Two rounds of `k` credits are `2 * k` credits. */
  lemma BumpedDouble(p: Option<int>, q: Option<int>, r: Option<int>, k: nat, mode: Credit)
    requires q == Bumped(p, k, mode) && r == Bumped(q, k, mode)
    ensures r == Bumped(p, 2 * k, mode)
  {
    BumpedTwice(p, k, k, mode);
  }
}

=== FILE: timefmt.dfy ===
/** The kick-off time field: the validation pattern
    `^([0-1]?[0-9]|2[0-3]):[0-5][0-9](:[0-5][0-9])?$` shared by the create and
    update schemas, and the `":00"` padding applied when a match is created. */
module TimeFormat {
  import opened Domain

  predicate IsDigit(c: char)
  {
    '0' <= c <= '9'
  }

  /** `[0-1]?[0-9]|2[0-3]` */
  predicate HourText(h: string)
  {
    || (|h| == 1 && IsDigit(h[0]))
    || (|h| == 2 && (h[0] == '0' || h[0] == '1') && IsDigit(h[1]))
    || (|h| == 2 && h[0] == '2' && '0' <= h[1] <= '3')
  }

  /** `[0-5][0-9]` */
  predicate SixtyText(t: string)
  {
    |t| == 2 && '0' <= t[0] <= '5' && IsDigit(t[1])
  }

  /** `:[0-5][0-9](:[0-5][0-9])?`, everything after the hour. */
  predicate TailText(r: string)
  {
    || (|r| == 3 && r[0] == ':' && SixtyText(r[1..]))
    || (|r| == 6 && r[0] == ':' && SixtyText(r[1..3]) && r[3] == ':' && SixtyText(r[4..]))
  }

  /** The whole anchored pattern: a one- or two-character hour, then the tail. */
  predicate IsTime(s: string)
  {
    || (|s| >= 1 && HourText(s[..1]) && TailText(s[1..]))
    || (|s| >= 2 && HourText(s[..2]) && TailText(s[2..]))
  }

  /** A time of day as the pattern can spell it.  `twoDigitHour` tells whether
      the hour was written with two characters ("07" or "7"); hours from 10
      on always are. */
  datatype Clock = Clock(hour: int, minute: int, second: Option<int>, twoDigitHour: bool)

  predicate ValidClock(c: Clock)
  {
    && 0 <= c.hour <= 23
    && 0 <= c.minute <= 59
    && (c.second.Some? ==> 0 <= c.second.value <= 59)
    && (c.hour >= 10 ==> c.twoDigitHour)
  }

  function Digit(n: int): (c: char)
    requires 0 <= n <= 9
    ensures IsDigit(c)
  {
    ('0' as int + n) as char
  }

  function DigitValue(c: char): int
  {
    c as int - '0' as int
  }

  function TwoDigits(n: int): (s: string)
    requires 0 <= n <= 99
    ensures |s| == 2
  {
    [Digit(n / 10), Digit(n % 10)]
  }

  function HourSpelling(c: Clock): (s: string)
    requires ValidClock(c)
    ensures |s| == (if c.twoDigitHour then 2 else 1)
  {
    if c.twoDigitHour then TwoDigits(c.hour) else [Digit(c.hour)]
  }

  function Render(c: Clock): (s: string)
    requires ValidClock(c)
  {
    HourSpelling(c) + ":" + TwoDigits(c.minute)
    + (if c.second.Some? then ":" + TwoDigits(c.second.value) else "")
  }

  /** Every valid clock reading is accepted by the pattern. */
  lemma RenderIsTime(c: Clock)
    requires ValidClock(c)
    ensures IsTime(Render(c))
  {
    var s := Render(c);
    var h := HourSpelling(c);
    assert s[..|h|] == h;
    assert s[|h|..] == ":" + TwoDigits(c.minute)
      + (if c.second.Some? then ":" + TwoDigits(c.second.value) else "");
  }

  /** The value of two decimal digits, which spell it back. */
  function PairValue(t: string): (v: int)
    requires |t| == 2 && IsDigit(t[0]) && IsDigit(t[1])
    ensures v == DigitValue(t[0]) * 10 + DigitValue(t[1])
    ensures 0 <= v <= 99 && TwoDigits(v) == t
  {
    var v := DigitValue(t[0]) * 10 + DigitValue(t[1]);
    assert v / 10 == DigitValue(t[0]) && v % 10 == DigitValue(t[1]);
    v
  }

  /** Reads the hour part: its value and whether it has two characters. */
  function ParseHour(h: string): (hc: (int, bool))
    requires HourText(h)
    ensures 0 <= hc.0 <= 23 && (hc.0 >= 10 ==> hc.1)
    ensures (if hc.1 then TwoDigits(hc.0) else [Digit(hc.0)]) == h
  {
    if |h| == 1 then (DigitValue(h[0]), false) else (PairValue(h), true)
  }

  /** Reads the part after the hour: the minutes and the optional seconds. */
  function ParseTail(r: string): (ms: (int, Option<int>))
    requires TailText(r)
    ensures 0 <= ms.0 <= 59 && (ms.1.Some? ==> 0 <= ms.1.value <= 59)
    ensures ":" + TwoDigits(ms.0) + (if ms.1.Some? then ":" + TwoDigits(ms.1.value) else "") == r
  {
    var minute := PairValue(r[1..3]);
    if |r| == 6 then
      var second := PairValue(r[4..]);
      assert r == ":" + r[1..3] + ":" + r[4..];
      (minute, Some(second))
    else
      assert r == ":" + r[1..3];
      (minute, None)
  }

  /** Reads a time the pattern accepts back into a clock: together with
      `RenderIsTime`, the pattern accepts exactly the spellings of the times
      00:00 to 23:59 with optional seconds. */
  function ParseTime(s: string): (c: Clock)
    requires IsTime(s)
    ensures ValidClock(c)
    ensures Render(c) == s
  {
    var n := if |s| >= 1 && HourText(s[..1]) && TailText(s[1..]) then 1 else 2;
    var hc := ParseHour(s[..n]);
    var ms := ParseTail(s[n..]);
    var c := Clock(hc.0, ms.0, ms.1, hc.1);
    assert HourSpelling(c) == s[..n];
    assert s == s[..n] + s[n..];
    c
  }

  /** Number of `':'` characters; `s.split(':').length` is one more. */
  function Colons(s: string): nat
  {
    if s == [] then 0 else (if s[0] == ':' then 1 else 0) + Colons(s[1..])
  }

  predicate OccursAt(s: string, sub: string, i: int)
  {
    0 <= i <= |s| - |sub| && s[i..i + |sub|] == sub
  }

  predicate Contains(s: string, sub: string)
  {
    exists i | 0 <= i <= |s| - |sub| :: OccursAt(s, sub, i)
  }

  /** createMatch's padding: a non-empty time with exactly one colon that
      does not contain `":00"` gets `":00"` appended. */
  function PadTime(t: string): (r: string)
    ensures r == t || r == t + ":00"
  {
    if |t| > 0 && !Contains(t, ":00") && Colons(t) + 1 == 2 then t + ":00" else t
  }

  lemma {:induction false} ColonsAppend(a: string, b: string)
    ensures Colons(a + b) == Colons(a) + Colons(b)
    decreases |a|
  {
    if a == [] {
      assert a + b == b;
    } else {
      assert (a + b)[0] == a[0];
      assert (a + b)[1..] == a[1..] + b;
      ColonsAppend(a[1..], b);
    }
  }

  lemma {:induction false} NoColonsInDigits(s: string)
    requires forall i :: 0 <= i < |s| ==> IsDigit(s[i])
    ensures Colons(s) == 0
    decreases |s|
  {
    if s != [] {
      NoColonsInDigits(s[1..]);
    }
  }

  /** A one-colon time whose minutes are not `"00"` does not contain `":00"`. */
  lemma NoZeroMinutes(h: string, m: string)
    requires forall i :: 0 <= i < |h| ==> IsDigit(h[i])
    requires |m| == 2 && IsDigit(m[0]) && IsDigit(m[1]) && m != "00"
    ensures !Contains(h + (":" + m), ":00")
  {
    var s := h + (":" + m);
    forall i | 0 <= i <= |s| - 3
      ensures !OccursAt(s, ":00", i)
    {
      assert s[i..i + 3][0] == s[i];
      if i < |h| {
        assert s[i] == h[i];
      } else {
        assert s[i..i + 3] == ":" + m;
        assert (":" + m)[1..] == m;
      }
    }
  }

  /** What the padding does to a valid time, in terms of the clock: seconds
      are added exactly when they are missing and the minutes are not 00
      ("10:30" becomes "10:30:00", "10:00" is left as it is). */
  lemma PadTimeOnClock(c: Clock)
    requires ValidClock(c)
    ensures PadTime(Render(c)) ==
      (if c.second.None? && c.minute != 0 then Render(c.(second := Some(0))) else Render(c))
  {
    var h := HourSpelling(c);
    var m := TwoDigits(c.minute);
    var s := Render(c);
    NoColonsInDigits(h);
    NoColonsInDigits(m);
    if c.second.None? {
      assert s == h + (":" + m);
      ColonsAppend(h, ":" + m);
      ColonsAppend(":", m);
      assert Colons(s) == 1;
      assert |s| == |h| + 3;
      assert s[|h|..|h| + 3] == ":" + m;
      assert Contains(s, ":00") <==> c.minute == 0 by {
        if c.minute == 0 {
          assert m == "00";
          assert OccursAt(s, ":00", |h|);
        } else {
          assert m != "00" by {
            assert m[0] == Digit(c.minute / 10) && m[1] == Digit(c.minute % 10);
          }
          NoZeroMinutes(h, m);
        }
      }
      assert Render(c.(second := Some(0))) == s + ":00";
    } else {
      var sec := TwoDigits(c.second.value);
      NoColonsInDigits(sec);
      assert s == h + (":" + m) + (":" + sec);
      ColonsAppend(h + (":" + m), ":" + sec);
      ColonsAppend(h, ":" + m);
      ColonsAppend(":", m);
      ColonsAppend(":", sec);
      assert Colons(s) == 2;
    }
  }

  /** The two cases the padding is usually described by. */
  lemma PadTimeExamples()
    ensures PadTime("10:00") == "10:00"
    ensures PadTime("10:30") == "10:30:00"
  {
    var ten := Clock(10, 0, None, true);
    var tenThirty := Clock(10, 30, None, true);
    assert Render(ten) == "10:00";
    assert Render(tenThirty) == "10:30";
    assert Render(tenThirty.(second := Some(0))) == "10:30:00";
    PadTimeOnClock(ten);
    PadTimeOnClock(tenThirty);
  }

  /** Padding never takes a time outside the pattern. */
  lemma PaddedTimeIsTime(t: string)
    requires IsTime(t)
    ensures IsTime(PadTime(t))
  {
    var c := ParseTime(t);
    PadTimeOnClock(c);
    RenderIsTime(c);
    RenderIsTime(c.(second := Some(0)));
  }
}
